=== FILE: README.md ===
# Quick WebM Recorder — a Dafny model of its core

Quick WebM Recorder is a small Linux tray application. It records a region
of the X11 screen, with the system audio if there is any, to an MP4 file.
A global hotkey (or the tray icon) opens a full-screen overlay. The user
drags a rectangle on it. The selection then stays framed by a draggable
border, with a small toolbar below it. The hotkey or the toolbar's button
starts `ffmpeg` on the selected region, and the next press stops it and
puts the file's path on the clipboard.

This project models the core of that program as pure Dafny functions on
immutable states, and proves what the program promises about them:

- **`Geometry`**: the `(x, y, w, h)` rectangles; drag normalisation; the snap
  to even sizes; the border's frame; the overlay box spanning every monitor.
- **`Overlay`**: `SelectionManager` with its `BorderWindow` and
  `ToolbarWindow`, as an event-driven state machine. It covers the press,
  drag and release of a selection, the cancel, dragging the selection by its
  frame or toolbar, the frame's click-through input shape, and the
  toolbar's placement.
- **`Config`**: the settings dictionary. It covers the quality profiles, the
  defaults and the load-time merge, the quality getter and setter,
  `video_quality`, audio-source resolution, and the audio sources listed
  from `pactl`.
- **`Recorder`**: `start` / `stop` / `is_recording`. It covers the file
  name, the 1-pixel inset, and the exact `ffmpeg` argument list. The list
  comes with a model of how `ffmpeg` reads it (**`Ffmpeg`**).
- **`SettingsWindow`**: turning captured key presses into a hotkey string,
  and the settings a Save writes.
- **`App`**: the four-mode machine (idle, selecting, ready, recording), the
  overlay callbacks, the tray icon's guard, the settings window's lifetime
  and quitting. It has an invariant that every event preserves.
- **`Text`** and **`Decimal`**: the Python string and number operations
  these rely on (`split`, `join`, `strip`, `replace`, `lower`, `title`,
  `str(int)` and zero-padded `strftime` fields).

Clocks, subprocesses and `pactl` output become parameters. `Recorder.Launch`
carries the time stamp, the default sink and whether the process spawned.
`App.World` carries the monitors and the launch.

## Model

| member | source | states |
|---|---|---|
| Text.Split | src/config.py:135-137 | `str.split` on one character: every piece is free of the separator, there is a single piece exactly when the separator does not occur, and joining the pieces gives the string back (`Text.JoinSplit`) |
| Text.SplitJoin | src/main.py:307 | splitting a `"+"`-joined list of separator-free tokens gives back exactly those tokens |
| Text.Strip | src/config.py:161 | `str.strip`: the result is the slice of the string between a white-space prefix and a white-space suffix, it neither starts nor ends with white space, and a string without white space is unchanged |
| Text.Lower | src/main.py:299 | `str.lower` on ASCII: upper-case ASCII letters become lower case, every other character is kept, and the length is kept |
| Text.Title | src/config.py:144 | `str.title`: non-letters are kept; a letter becomes upper case exactly when it starts a word, and lower case otherwise |
| Text.ReplaceCharRemoves | src/config.py:142 | replacing a character by a different one leaves no occurrence of it |
| Decimal.IntToStringRoundTrip | src/recorder.py:40-43 | `str(n)` of any integer, negative ones included, reads back as `n` |
| Decimal.ZeroPad | src/recorder.py:16 | a zero-padded `strftime` field is all digits, is as wide as asked when the number fits, and reads back as the number |
| Geometry.Normalize | src/overlay.py:151-154 | the rectangle spanned by two drag corners has non-negative sides, and its edges are exactly the corners' coordinates |
| Geometry.NormalizeCornerIndependent | src/overlay.py:151-154 | swapping the corners, or either pair of coordinates, gives the same rectangle |
| Geometry.SnapEven | src/overlay.py:159-160 | `n - n % 2` is even and is `n` or `n - 1` |
| Geometry.SnapEvenGreatest | src/overlay.py:159-160 | no even number between it and `n` is skipped |
| Geometry.OverlayBox | src/overlay.py:103-114 | the overlay window reaches the origin and covers every monitor |
| Geometry.OverlayBoxSmallest | src/overlay.py:103-114 | every rectangle that reaches the origin and covers every monitor covers the overlay window, so it is the smallest such box |
| Overlay.TrackPress | src/overlay.py:266-271 | a left press (on the frame only while not recording) starts a drag at the pointer; any other press leaves the tracker exactly as it was |
| Overlay.TrackMotion | src/overlay.py:275-281 | a motion yields a delta exactly while dragging, and then the pointer becomes the new reference point |
| Overlay.TrackRelease | src/overlay.py:272-273 | a release ends the drag |
| Overlay.DeltasTelescope | src/overlay.py:275-281 | the deltas of a drag along a path sum to the end point minus the grab point |
| Overlay.UpdateRect | src/overlay.py:386-404 | a drag with an empty side leaves the border as it was; otherwise the border is shown around the normalised rectangle, grown by the border width on every side |
| Overlay.UpdateFromSelection | src/overlay.py:406-413 | the border frames the given selection |
| Overlay.SetPosition | src/overlay.py:415-422 | without a rect nothing changes; otherwise the rect moves to `(x, y)` with its size kept, the window still frames it, and visibility, recording flag and drag tracker are kept |
| Overlay.InputShape | src/overlay.py:346-367 | no shape is installed without a rect; the centre is cut out exactly when the window is wider and taller than two border widths |
| Overlay.CentreIsSelection | src/overlay.py:346-367 | around a non-empty selection, the click-through centre placed on the screen is exactly the selection |
| Overlay.EffectiveWidth | src/overlay.py:293-295 | a reported width below 10 is replaced by the 200-pixel fallback; otherwise it is used as it is |
| Overlay.PositionBelow | src/overlay.py:283-301 | the toolbar is centred under the selection, 8 pixels below it |
| Overlay.ToolbarClearsFrame | src/overlay.py:283-301 | the toolbar starts below the bottom edge of the border frame |
| Overlay.ShowForSelection | src/overlay.py:89-116 | the overlay is shown over every monitor with no selection, no border and no toolbar |
| Overlay.Press | src/overlay.py:125-131 | a left press starts a drag at the pointer, a right press cancels, other buttons do nothing |
| Overlay.Move | src/overlay.py:133-140 | a motion never changes the selection and does nothing unless dragging; while dragging it records the pointer as the end, and the border previews the normalised rectangle from the start to the pointer when that is non-empty, and is otherwise left alone |
| Overlay.Accept | src/overlay.py:151-160 | a drag is accepted exactly when both raw sides exceed 10; the accepted selection keeps the corner, and its sides are rounded down to even and form a valid selection |
| Overlay.AcceptDirectionIndependent | src/overlay.py:151-160 | the accepted selection does not depend on the direction of the drag |
| Overlay.Release | src/overlay.py:142-174 | a left release ends the drag and hides the overlay; a large enough drag becomes the selection, framed by the border with the toolbar below it, and is reported as completed; a smaller one hides the border and is reported as a cancel |
| Overlay.Cancel | src/overlay.py:180-186 | every window is hidden, the drag ends and the cancel is reported; the selection is kept |
| Overlay.OnDrag | src/overlay.py:73-81 | without a selection nothing moves; otherwise the selection moves by the delta, the border follows it with its size kept, the toolbar is shown centred 8 pixels below the moved selection, and the overlay's invariant is kept; the drag corners, the overlay window and the border's visibility, recording flag and drag tracker do not change |
| Overlay.DragBySum | src/overlay.py:73-81 | a run of drag deltas moves the selection by their sum |
| Overlay.DragFollowsPointer | src/overlay.py:266-281 | dragging the toolbar from where it was grabbed to where the pointer ends moves the selection by exactly that displacement |
| Overlay.StartClicked | src/overlay.py:254-260 | the toolbar's button requests a stop while recording and a start otherwise, and changes nothing |
| Overlay.SetRecording | src/overlay.py:188-190 | the border and the toolbar both show the recording flag; the selection and the frame are kept |
| Overlay.Step | src/overlay.py:48-81 | the callbacks fire only from their own events: only the overlay's release completes a selection; only the overlay's buttons, Escape and the toolbar's Cancel cancel, and Escape and Cancel always do; only the toolbar's button asks to start or stop, stopping exactly while recording; only showing, a release and a frame or toolbar drag change the selection |
| Overlay.StepKeepsGood | src/overlay.py:55-71 | every overlay event keeps the border framing the selection, and every reported selection is valid |
| Config.ProfileCrf | src/config.py:9-15 | a name has a CRF exactly when it is one of the five profiles |
| Config.ProfileTable | src/config.py:9-15 | the five profiles map to CRF 0, 18, 23, 28 and 35 |
| Config.QualityProfile | src/config.py:100-102 | the stored profile, or `"medium"` when none is stored |
| Config.SetQualityProfile | src/config.py:104-108 | a known profile name is stored; anything else, no selection included, leaves the settings unchanged |
| Config.Load | src/config.py:29-44 | the loaded settings hold every default key; an unreadable file gives the defaults; a parsed file's values override the defaults, and the defaults fill in the rest |
| Config.SaveLoadRoundTrip | src/config.py:33-53 | loading a file that holds the loaded settings gives the same settings |
| Config.SetThenQuality | src/config.py:104-116 | after the setter, `video_quality` is the CRF of the new profile; a value that is not a profile leaves the quality as it was |
| Config.VideoQuality | src/config.py:110-116 | the CRF is always one of the profiles'; it is the stored profile's CRF when that names a profile, and 23 otherwise |
| Config.DefaultQuality | src/config.py:100-116 | with no stored profile the quality is the medium CRF, 23 |
| Config.ResolvedAudioSource | src/config.py:150-166 | `"none"` gives no audio; `"auto"` gives the stripped default sink followed by `.monitor`, or no audio exactly when `pactl` failed; any other stored value, a number or boolean included, is returned as it is |
| Config.FriendlyName | src/config.py:140-144 | the caption is the source name without `alsa_output.` and `.monitor`, of the same length, with `_` and `-` turned into spaces, other non-letters kept, and each letter upper case exactly when no letter precedes it (title case) and lower case otherwise |
| Config.MonitorLines | src/config.py:135-138 | every line the loop keeps mentions `.monitor` and has at least two tab-separated fields |
| Config.MonitorIndicesSpec | src/config.py:135-138 | the reference list of monitor-line positions is strictly increasing, lists only monitor lines, and lists every one of them |
| Config.MonitorLinesInOrder | src/config.py:135-138 | the kept lines are exactly the monitor lines, one each, in the order of the listing |
| Config.EntriesInOrder | src/config.py:135-145 | the loop gives one entry per monitor line, in order: the j-th entry is the second field and caption of the j-th monitor line |
| Config.EntriesDescribeLines | src/config.py:135-145 | every entry comes from a monitor line, and every monitor line gives an entry |
| Config.AudioSources | src/config.py:127-148 | the list starts with "auto" and "none"; when `pactl` fails there is nothing else; otherwise there is one more entry per monitor line of its output, in the order of the lines, and nothing else |
| Recorder.FileName | src/recorder.py:16 | the file name has 29 characters, starts with `recording_` and ends with `.mp4` |
| Recorder.FileNameRoundTrip | src/recorder.py:16 | the time stamp can be read back from the file name |
| Recorder.FileNamesDistinct | src/recorder.py:16 | recordings started in different seconds get different files |
| Recorder.OutputPath | src/recorder.py:14-17 | the output path is the output directory, one `/` unless the directory is empty or already ends with one, and the time-stamped `.mp4` name |
| Recorder.OutputPathSplits | src/recorder.py:14-17 | the path's base name (what follows its last `/`) is the file name and what precedes it is the directory with its separator: the recording lies directly in the output directory |
| Recorder.JoinPath | src/recorder.py:17 | `os.path.join`: an absolute name replaces the directory; otherwise the name is appended, after one inserted `/` exactly when the directory is non-empty and does not end with `/` |
| Recorder.CaptureRegion | src/recorder.py:24-31 | the region is moved in by one pixel; both sides are even and at least 2, and two or three pixels smaller than given when that leaves at least 2 |
| Recorder.SelectionInsetExact | src/recorder.py:22-31 | for a valid selection the region is the selection shrunk by exactly one pixel on every side, so it lies inside the selection |
| Recorder.GeometryArgumentsRoundTrip | src/recorder.py:42-43 | the `WxH` and `:0.0+X,Y` arguments read back as the region's size and corner |
| Recorder.CommandAsWritten | src/recorder.py:34-71 | the argument list is the video input, the audio input when there is audio, the encoding options, the audio encoding when there is audio, then the output path |
| Recorder.CommandShape | src/recorder.py:34-71 | the list has 37 arguments with audio and 27 without; it starts `ffmpeg -y -f x11grab` and ends with the output path |
| Recorder.CommandReading | src/recorder.py:34-71 | `ffmpeg` reads one x11grab input (plus one pulse input exactly when there is audio) with the frame rate, size and corner asked for, and writes H.264 at the given CRF (plus AAC exactly when there is audio) to the output path |
| Recorder.AudioArgument | src/recorder.py:47-53 | the resolved source reaches the command line exactly when it is a non-empty string, and then as that string |
| Recorder.Start | src/recorder.py:13-76 | the output path is set first; when the encoder spawns, it is recording with an `ffmpeg` command that ends with that path; otherwise, a truthy non-string audio value included, the old process is kept |
| Recorder.Stop | src/recorder.py:78-86 | afterwards nothing is recording; the stored output path is returned and kept; stopping an idle recorder changes nothing |
| Recorder.StartThenStop | src/recorder.py:13-89 | stopping a recording that just started returns its output path and leaves nothing recording |
| Recorder.StartedEncoder | src/recorder.py:13-76 | for a valid selection, the started encoder captures the selection shrunk by one pixel through an x11grab input at the configured frame rate and profile CRF, and has a second, PulseAudio (`-f pulse`) input exactly when the resolved source is a non-empty string, reading that source |
| Recorder.Example800x600 | src/recorder.py:24-43 | an 800x600 selection at (100, 100) is captured as `798x598` at `:0.0+101,101` |
| SettingsWindow.ModifierToken | src/main.py:289-297 | a key gives a token exactly when it is one of the twelve modifier keys (plain, left or right Cmd, Ctrl, Alt, Shift), and each gives its own modifier's token |
| SettingsWindow.Candidate | src/main.py:298-301 | a character key proposes its character with ASCII letters lower-cased exactly when it has one; a named key proposes its name |
| SettingsWindow.ScanKeys | src/main.py:286-301 | the collected parts are modifier tokens; there is no main key exactly when no key proposes one, and otherwise it is the proposal of the last such key |
| SettingsWindow.ScanParts | src/main.py:286-297 | the collected parts are the modifier tokens of the keys, in the order the key set yields them |
| SettingsWindow.FinishCapture | src/main.py:279-310 | with no keys, or nothing recognised, the entry is left alone; otherwise splitting the new entry on `+` gives the tokens, when no token holds a `+` |
| SettingsWindow.HotkeyString | src/main.py:303-308 | the written hotkey is the modifiers, in the order the key set yields them, followed by the main key, and it ends with the main key |
| SettingsWindow.CaptureExample | src/main.py:279-308 | when the key set yields left Ctrl, Shift and `R` in that order, the hotkey is `<ctrl>+<shift>+r` |
| SettingsWindow.Save | src/main.py:326-334 | the hotkey, output directory, frame rate and audio source are written; the profile is written when it names a profile and is otherwise left as stored (or absent); other keys are kept; the hotkey counts as changed exactly when it differs from the reference |
| SettingsWindow.SaveThenResolve | src/main.py:326-334 | after a Save the audio setting is present, the quality is the chosen profile's CRF (or unchanged when the choice is not a profile), and the source resolves to no audio for no choice or "none", and to the chosen id otherwise apart from "auto" |
| SettingsWindow.SaveIsStable | src/main.py:326-334 | reloading the saved settings gives them back unchanged |
| App.Initial | src/main.py:19-37 | the application starts idle with no selection and no recording, listening for the stored hotkey |
| App.StartSelection | src/main.py:74-76 | selecting starts with the overlay over every monitor, and no overlay selection or toolbar |
| App.OnSelectionComplete | src/main.py:78-81 | a completed selection makes the application ready with that selection |
| App.OnCancel | src/main.py:83-86 | a cancel makes the application idle and forgets the selection |
| App.StartRecording | src/main.py:88-93 | the application records and the overlay shows it; when the encoder spawns it captures the stored selection; when `start` sets the path but does not spawn only the path changes; without a selection or a usable clock the recorder is left alone |
| App.StopRecording | src/main.py:95-101 | the application is idle with no selection or recording, the border and toolbar are hidden, and the output path is handed on |
| App.OnHotkey | src/main.py:66-72 | idle runs exactly `start_selection`, ready exactly `start_recording`, recording exactly `stop_recording`, and selecting ignores the key; the settings, the listener and the main loop are untouched |
| App.TrayActivate | src/main.py:361-364 | the tray's left click starts a selection only when idle |
| App.Step | src/main.py:19-37 | only Quit ends the main loop and it leaves nothing recording; only Save touches the settings and the listener; the settings window's events and Quit keep the mode and the selection |
| App.Enabled | src/main.py:366-372 | nothing reaches a stopped application; the "Record" item is enabled exactly when idle; the overlay's Show and Recording are never events; Cancel is enabled exactly while the toolbar is shown and not recording |
| App.Deliver | src/main.py:28-31 | overlay notices reach the application's callbacks: completed makes it ready with that selection, cancelled makes it idle, start runs `start_recording` on the updated overlay, stop makes it idle with nothing recording and hands on the path, and a quiet event changes only the overlay; completed and cancelled keep the recorder and leave the overlay as the event left it; the settings and the listener are untouched |
| App.OpenSettings | src/main.py:39-43 | the settings window is built once, with the hotkey stored at that moment |
| App.SaveSettings | src/main.py:326-337 | Save writes the form; the listener moves to the new hotkey exactly when it differs from the window's reference hotkey |
| App.Quit | src/main.py:128-131 | quitting leaves nothing recording and ends the main loop |
| App.Shutdown | src/main.py:122-125 | the clean-up after the main loop leaves nothing recording and keeps the output path |
| App.QuitStopsRecording | src/main.py:114-131 | after quitting and the clean-up that follows the main loop, no encoder is left running |
| App.InitialInv | src/main.py:19-37 | the start state satisfies the invariant |
| App.StepKeepsInv | src/main.py:66-101 | every event the application can receive keeps the invariant: the selection exists exactly while ready or recording and is valid; the overlay, border and toolbar are shown in the matching modes; only the recording mode records |
| App.HotkeyKeepsInv | src/main.py:66-72 | the hotkey keeps the invariant |
| App.DeliverKeepsInv | src/overlay.py:55-71 | every overlay event keeps the invariant |
| App.SelectionChangesOnlyOnCompleteOrClear | src/main.py:78-101 | the stored selection changes only when a selection completes, and is cleared only on a cancel or a stop |
| App.TrayOnlyFromIdle | src/main.py:361-372 | outside idle, the tray's click does nothing and its Record item is disabled; from idle both start a selection |
| App.ReadyHotkeyRecordsInset | src/main.py:69-70 | the hotkey when ready starts an encoder whose command line reads as: output to the timestamped path, x11grab input of the selection shrunk by one pixel at the configured frame rate, the profile's CRF, and a second (PulseAudio) input from the resolved source exactly when that source is a non-empty string |
| App.HotkeyWhenReady | src/main.py:69-92 | the hotkey when ready records the stored selection |
| App.ToolbarDrag | src/overlay.py:266-281 | dragging the toolbar when ready moves the overlay's selection and its frame by the drag, and changes nothing else |
| App.DraggedSelectionNotRecorded | src/main.py:88-92 | after a toolbar drag the frame shows the moved selection, but the hotkey records the old one |
| App.StartRecordingFromOverlay | src/main.py:88-92 | `start_recording` reading the overlay's current selection: the application records, and the encoder captures that selection |
| App.RecordsFramedRegion | src/main.py:88-92 | with the corrected start, the captured region is always the framed selection shrunk by one pixel |
| App.DraggedSelectionRecorded | src/main.py:88-92 | with the corrected start, the same drag is recorded at the moved position |
| App.ListenerLeftOnOldHotkey | src/main.py:139 | saving hotkey B and then hotkey A again leaves the listener on B while the settings say A |
| App.SaveSettingsRefreshed | src/main.py:326-337 | Save with the reference hotkey refreshed to the saved one; otherwise it is the same as Save |
| App.RefreshedSaveKeepsListenerSynced | src/main.py:58-64 | with the refreshed reference, the listener always waits for the stored hotkey |

## Left out

- The GTK drawing, windows, signals and main loop are left out. Only their effect on the state is modelled: visibility, positions, the input-shape region as a description, and the border colour as the recording flag.
- Process control is left out: `Popen`, `SIGINT`, the 5-second wait and the `kill`. A process is its argument list, and whether it spawned is a parameter.
- The clock and the file system are left out (`datetime.now`, `expanduser`, `makedirs`). The stamp and the expanded output directory are parameters.
- Recorder.Start: requires a clock with a four-digit year and the `framerate` and `audio_source` keys, which loading always supplies. `Recorder.Spawns` says when the encoder really starts: the process can be spawned and the audio value is text or falsy. A truthy number or `true` reaches `Popen` as an argument, which raises after the output path is set; the model keeps the old process then.
- App.StartRecording: an exception raised in `start` is not modelled. Without a selection the unpacking raises before `start`, and the model leaves the recorder unchanged. A failing `makedirs` or `Popen` leaves the mode at recording; the model reaches the same mode, with the output path set and no new process when `Popen` fails.
- JSON reading and writing are left out. A file is missing, unreadable or a parsed dictionary. Values are strings, integers, booleans and null; lists, floats, nested objects and non-dictionary JSON are not modelled.
- The `pactl` calls are left out. Their standard output, or their failure, is a parameter.
- The clipboard is left out. This covers `xclip` and the `None.encode()` that follows stopping without an output path. `App.StopRecording` hands the path on.
- `hotkey.py` (the global key listener) is not part of this model. The listener is the hotkey value it listens for.
- Config.FriendlyName / Text.Title: case mapping covers ASCII letters only. Any other character is kept as it is and counts as a word break.
- Text.Lower / SettingsWindow.Candidate: only ASCII letters are lower-cased. Python also lower-cases other alphabets, which is not modelled.
- Mouse coordinates are integers. GTK's floating-point event coordinates, and the `int()` truncation of the drag, are not modelled.
- The frame-rate spin button's float value and its `int()` are left out. The form carries an integer.
- The GIF settings and their getters, `show_about`, and the construction of the settings widgets are left out. These include the listening state of the capture button and `_stop_listening`.
- The `save()` each setter calls is left out. `SettingsWindow.SaveIsStable` states instead that writing and reloading the result gives it back.
- SettingsWindow.ScanKeys / SettingsWindow.HotkeyString: the captured keys are a Python `set` (src/main.py:144, :254), iterated in hash order at src/main.py:289. The model takes that iteration order as an unconstrained input sequence; it is not the press order, so pressing Ctrl then Shift may equally be written `<shift>+<ctrl>+r`. `SettingsWindow.CaptureExample` holds for one iteration order only.
- SettingsWindow.FinishCapture: the `Split` round trip requires that no token holds `+`. A main key named `+` yields a hotkey string that splits differently.
- The toolbar can be dragged while recording. The model allows it, and the captured region does not follow.

## Findings

| source | as written | input that shows it | evidently intended | confidence | as-written member | corrected member |
|---|---|---|---|---|---|---|
| src/main.py:88-92 | `start_recording` captures `App.selection`. That value is stored when the selection completes, and dragging the frame or the toolbar moves only the overlay's selection and border (src/overlay.py:73-81). | Select (100, 100, 800, 600), drag the toolbar by (50, 0), press the hotkey. The border frames x = 150, but `ffmpeg` grabs `:0.0+101,101`. | Record the region the border frames after the drag. | not executed | App.DraggedSelectionNotRecorded | App.StartRecordingFromOverlay |
| src/main.py:139 | The settings window is built once (src/main.py:40-41) and keeps the hotkey it read then as `original_hotkey`. Each Save judges `hotkey_changed` against that value (src/main.py:334). | With hotkey A, save B: the listener restarts on B. Save A again: `hotkey_changed` is false, so the listener stays on B while the settings say A. | Compare against the hotkey the listener currently uses, and refresh the reference after each Save. | not executed | App.ListenerLeftOnOldHotkey | App.SaveSettingsRefreshed |

=== FILE: app.dfy ===
/**
 * The application: a four-mode machine (idle, selecting, ready, recording)
 * driven by the global hotkey, the tray icon, the overlay's windows and the
 * settings window. The overlay, the recorder and the settings are the
 * models of their own modules; the outside world at the moment of an event
 * (the monitor layout, the clock, the `pactl` output, whether the encoder
 * could be spawned) is a parameter.
 */
module App {
  import opened Wrappers
  import opened Geometry
  import Overlay
  import Recorder
  import Config
  import Ffmpeg
  import Decimal
  import SettingsWindow

  datatype Mode = Idle | Selecting | Ready | Recording

  /** The application's state: the mode, the selection handed over by the
      overlay, the overlay itself, the recorder, the settings, the hotkey
      the global listener is waiting for, the hotkey the settings window read
      when it was built (`None` before it is first shown), and whether the
      main loop is still running. */
  datatype State = State(
    mode: Mode, selection: Option<Rect>, overlay: Overlay.Manager, recorder: Recorder.Recorder,
    settings: Config.Settings, listener: Config.Value, window: Option<Config.Value>, running: bool)

  /** What the outside world supplies to an event: the monitors the overlay
      must cover and what `start` finds when it runs. */
  datatype World = World(monitors: seq<Rect>, launch: Recorder.Launch)

  /** The state after start-up, with the settings loaded from `f` and the
      listener waiting for the loaded hotkey. */
  function Initial(f: Config.StoredFile): (a: State)
    ensures a.mode == Idle && a.selection.None? && !Recorder.IsRecording(a.recorder) && a.running
    ensures "hotkey" in a.settings && a.listener == a.settings["hotkey"]
  {
    var c := Config.Load(f);
    assert "hotkey" in Config.DefaultConfig;
    State(Idle, None, Overlay.Initial, Recorder.Fresh, c, c["hotkey"], None, true)
  }

  // ---------------------------------------------------------------------
  // Transitions
  // ---------------------------------------------------------------------

  /** `start_selection`: show the overlay over every monitor. */
  function StartSelection(a: State, monitors: seq<Rect>): (a': State)
    ensures a'.mode == Selecting && a'.selection == a.selection && a'.recorder == a.recorder
    ensures a'.overlay.overlayVisible && a'.overlay.selection.None? && !a'.overlay.toolbar.visible
    ensures forall i :: 0 <= i < |monitors| ==> a'.overlay.overlay.Covers(monitors[i])
    ensures a'.settings == a.settings && a'.listener == a.listener && a'.running == a.running
  {
    a.(mode := Selecting, overlay := Overlay.ShowForSelection(a.overlay, monitors))
  }

  /** `on_selection_complete` */
  function OnSelectionComplete(a: State, r: Rect): (a': State)
    ensures a'.mode == Ready && a'.selection == Some(r)
    ensures a'.recorder == a.recorder && a'.overlay == a.overlay
  {
    a.(mode := Ready, selection := Some(r))
  }

  /** `on_cancel` */
  function OnCancel(a: State): (a': State)
    ensures a'.mode == Idle && a'.selection.None?
    ensures a'.recorder == a.recorder && a'.overlay == a.overlay
  {
    a.(mode := Idle, selection := None)
  }

  /** `start_recording`, as written: the mode and the overlay switch to
      recording first; the recorder is started on the selection stored by
      `on_selection_complete`. Without a selection (the unpacking raises) or
      when the clock or a required key is unusable, the recorder is left as
      it was; when the path is set but the encoder does not start, only
      the path changes. */
  function StartRecording(a: State, l: Recorder.Launch): (a': State)
    ensures a'.mode == Recording && a'.selection == a.selection
    ensures a'.overlay.toolbar.recording && a'.overlay.border.recording
    ensures a'.overlay.selection == a.overlay.selection && a'.overlay.border.rect == a.overlay.border.rect
    ensures a.selection.Some? && Recorder.Spawns(a.settings, l) ==>
              var r := a.selection.value;
              Recorder.IsRecording(a'.recorder)
              && a'.recorder.process.value.argv == Recorder.StartCommand(a.settings, l, r.x, r.y, r.w, r.h)
    ensures a.selection.Some? && Recorder.CanStart(a.settings, l) && !Recorder.Spawns(a.settings, l) ==>
              a'.recorder.process == a.recorder.process
              && a'.recorder.outputPath == Some(Recorder.OutputPath(l.outputDir, l.stamp))
    ensures !(a.selection.Some? && Recorder.CanStart(a.settings, l)) ==> a'.recorder == a.recorder
    ensures a'.settings == a.settings && a'.listener == a.listener && a'.running == a.running
  {
    var a1 := a.(mode := Recording, overlay := Overlay.SetRecording(a.overlay, true));
    if a.selection.Some? && Recorder.CanStart(a.settings, l) then
      var r := a.selection.value;
      a1.(recorder := Recorder.Start(a.recorder, a.settings, l, r.x, r.y, r.w, r.h))
    else a1
  }

  /** What `stop_recording` leaves, and the path it hands to the clipboard. */
  datatype Stopped = Stopped(app: State, path: Option<string>)

  /** `stop_recording`: stop the encoder, hide the border and the toolbar,
      and return to idle without a selection. */
  function StopRecording(a: State): (s: Stopped)
    ensures s.app.mode == Idle && s.app.selection.None? && !Recorder.IsRecording(s.app.recorder)
    ensures s.path == a.recorder.outputPath
    ensures !s.app.overlay.border.visible && !s.app.overlay.toolbar.visible
    ensures !s.app.overlay.toolbar.recording && !s.app.overlay.border.recording
    ensures s.app.settings == a.settings && s.app.listener == a.listener && s.app.running == a.running
  {
    var st := Recorder.Stop(a.recorder);
    var o := Overlay.SetRecording(a.overlay, false);
    var o1 := o.(border := Overlay.HideBorder(o.border), toolbar := Overlay.HideToolbar(o.toolbar));
    Stopped(a.(mode := Idle, selection := None, recorder := st.recorder, overlay := o1), st.path)
  }

  /** `on_hotkey`: idle starts a selection, ready starts recording,
      recording stops; while selecting the hotkey does nothing. */
  function OnHotkey(a: State, w: World): (a': State)
    ensures a.mode == Idle ==> a' == StartSelection(a, w.monitors) && a'.mode == Selecting
    ensures a.mode == Selecting ==> a' == a
    ensures a.mode == Ready ==> a' == StartRecording(a, w.launch) && a'.mode == Recording && a'.selection == a.selection
    ensures a.mode == Recording ==>
              a' == StopRecording(a).app && a'.mode == Idle && a'.selection.None? && !Recorder.IsRecording(a'.recorder)
    ensures a'.settings == a.settings && a'.listener == a.listener && a'.running == a.running
  {
    match a.mode
    case Idle => StartSelection(a, w.monitors)
    case Selecting => a
    case Ready => StartRecording(a, w.launch)
    case Recording => StopRecording(a).app
  }

  /** The tray icon's left click starts a selection only when idle. */
  function TrayActivate(a: State, w: World): (a': State)
    ensures a.mode == Idle ==> a' == StartSelection(a, w.monitors)
    ensures a.mode != Idle ==> a' == a
  {
    if a.mode == Idle then StartSelection(a, w.monitors) else a
  }

  /** The tray menu's "Record" item is sensitive only when idle. */
  predicate RecordEnabled(a: State) {
    a.mode == Idle
  }

  /** A window event goes to the overlay, and the overlay's callback (if
      any) runs the matching transition. */
  function Deliver(a: State, e: Overlay.Event, l: Recorder.Launch): (a': State)
    ensures Overlay.Step(a.overlay, e).notice.Quiet? ==> a' == a.(overlay := Overlay.Step(a.overlay, e).m)
    ensures Overlay.Step(a.overlay, e).notice.Completed? ==>
              a'.mode == Ready && a'.selection == Some(Overlay.Step(a.overlay, e).notice.rect)
              && a'.recorder == a.recorder && a'.overlay == Overlay.Step(a.overlay, e).m
    ensures Overlay.Step(a.overlay, e).notice.Cancelled? ==>
              a'.mode == Idle && a'.selection.None?
              && a'.recorder == a.recorder && a'.overlay == Overlay.Step(a.overlay, e).m
    ensures Overlay.Step(a.overlay, e).notice.StartRequested? ==>
              a' == StartRecording(a.(overlay := Overlay.Step(a.overlay, e).m), l)
    ensures Overlay.Step(a.overlay, e).notice.StopRequested? ==>
              a'.mode == Idle && a'.selection.None? && !Recorder.IsRecording(a'.recorder)
              && a'.recorder.outputPath == a.recorder.outputPath
    ensures a'.settings == a.settings && a'.listener == a.listener && a'.running == a.running
  {
    var o := Overlay.Step(a.overlay, e);
    var a1 := a.(overlay := o.m);
    match o.notice
    case Quiet => a1
    case Completed(r) => OnSelectionComplete(a1, r)
    case Cancelled => OnCancel(a1)
    case StartRequested => StartRecording(a1, l)
    case StopRequested => StopRecording(a1).app
  }

  /** `show_settings`: the window is built the first time only, and reads
      the hotkey then. */
  function OpenSettings(a: State): (a': State)
    ensures a.window.None? && "hotkey" in a.settings ==> a'.window == Some(a.settings["hotkey"])
    ensures a.window.Some? ==> a' == a
    ensures a' == a.(window := a'.window)
  {
    if a.window.None? && "hotkey" in a.settings then a.(window := Some(a.settings["hotkey"])) else a
  }

  /** Save in the settings window, as written: the change is judged against
      the hotkey read when the window was built, and a change restarts the
      listener on the saved hotkey. */
  function SaveSettings(a: State, f: SettingsWindow.Form): (a': State)
    ensures a.window.None? ==> a' == a
    ensures a.window.Some? ==> a'.settings == SettingsWindow.Save(a.settings, a.window.value, f).settings
                               && a'.window == a.window
    ensures a.window.Some? && Config.Str(f.hotkey) != a.window.value ==> a'.listener == Config.Str(f.hotkey)
    ensures a.window.Some? && Config.Str(f.hotkey) == a.window.value ==> a'.listener == a.listener
    ensures a' == a.(settings := a'.settings, listener := a'.listener)
  {
    match a.window
    case None => a
    case Some(original) =>
      var s := SettingsWindow.Save(a.settings, original, f);
      a.(settings := s.settings, listener := if s.hotkeyChanged then s.settings["hotkey"] else a.listener)
  }

  /** `quit` from the tray menu: stop a running encoder, end the main loop. */
  function Quit(a: State): (a': State)
    ensures !Recorder.IsRecording(a'.recorder) && !a'.running
    ensures Recorder.IsRecording(a.recorder) ==> a'.recorder.outputPath == a.recorder.outputPath
    ensures !Recorder.IsRecording(a.recorder) ==> a'.recorder == a.recorder
    ensures a' == a.(recorder := a'.recorder, running := false)
  {
    Shutdown(a)
  }

  /** The clean-up after the main loop returns (also on Ctrl-C): stop the
      encoder if it is still recording. */
  function Shutdown(a: State): (a': State)
    ensures !Recorder.IsRecording(a'.recorder) && !a'.running
    ensures a'.recorder.outputPath == a.recorder.outputPath
    ensures a' == a.(recorder := a'.recorder, running := false)
  {
    var r := if Recorder.IsRecording(a.recorder) then Recorder.Stop(a.recorder).recorder else a.recorder;
    a.(recorder := r, running := false)
  }

  datatype Event =
    | Hotkey
    | TrayActivateEvent
    | TrayRecord
    | Window(e: Overlay.Event)
    | OpenSettingsEvent
    | SaveSettingsEvent(form: SettingsWindow.Form)
    | QuitEvent

  /** The application's reaction to one event. Only Quit ends the main loop
      and it leaves no encoder running; only Save touches the settings and
      the listener; the settings window's events leave the mode alone. */
  function Step(a: State, e: Event, w: World): (a': State)
    ensures a'.running <==> a.running && !e.QuitEvent?
    ensures e.QuitEvent? ==> !Recorder.IsRecording(a'.recorder)
    ensures a'.settings != a.settings || a'.listener != a.listener ==> e.SaveSettingsEvent?
    ensures e.OpenSettingsEvent? || e.SaveSettingsEvent? || e.QuitEvent? ==>
              a'.mode == a.mode && a'.selection == a.selection
  {
    match e
    case Hotkey => OnHotkey(a, w)
    case TrayActivateEvent => TrayActivate(a, w)
    case TrayRecord => StartSelection(a, w.monitors)
    case Window(oe) => Deliver(a, oe, w.launch)
    case OpenSettingsEvent => OpenSettings(a)
    case SaveSettingsEvent(f) => SaveSettings(a, f)
    case QuitEvent => Quit(a)
  }

  /** Which events can reach the application: nothing after the main loop
      ended; the "Record" item only while it is sensitive; events of the
      overlay, border or toolbar window only while that window is shown;
      the toolbar's Cancel only while it is sensitive (not recording). The
      overlay's own `Show` and `Recording` are calls the application makes,
      not events. */
  predicate Enabled(a: State, e: Event): (ok: bool)
    ensures ok ==> a.running
    ensures e.TrayRecord? ==> (ok <==> a.running && a.mode == Idle)
    ensures e.Window? && (e.e.Show? || e.e.Recording?) ==> !ok
    ensures e.Window? && e.e.ToolbarAbort? ==>
              (ok <==> a.running && a.overlay.toolbar.visible && !a.overlay.toolbar.recording)
  {
    a.running &&
    match e
    case TrayRecord => RecordEnabled(a)
    case Window(oe) =>
      (match oe
       case Show(_) => false
       case Recording(_) => false
       case OverlayPress(_, _) => a.overlay.overlayVisible
       case OverlayMotion(_) => a.overlay.overlayVisible
       case OverlayRelease(_, _, _) => a.overlay.overlayVisible
       case KeyPress(_) => a.overlay.overlayVisible
       case BorderPress(_, _) => a.overlay.border.visible
       case BorderMotion(_, _) => a.overlay.border.visible
       case BorderRelease => a.overlay.border.visible
       case ToolbarAbort => a.overlay.toolbar.visible && !a.overlay.toolbar.recording
       case _ => a.overlay.toolbar.visible)
    case _ => true
  }

  // ---------------------------------------------------------------------
  // The invariant
  // ---------------------------------------------------------------------

  /** The selection exists exactly while ready or recording, and is a valid
      overlay selection; only the recording mode has a running encoder; the
      overlay is shown exactly while selecting; the toolbar exactly while
      ready or recording, then showing the selection it frames, and in its
      recording look exactly while recording; the border is hidden when
      idle; and the settings keep every default key. */
  predicate Inv(a: State) {
    && Overlay.Good(a.overlay)
    && (a.selection.Some? <==> a.mode == Ready || a.mode == Recording)
    && (a.selection.Some? ==> ValidSelection(a.selection.value))
    && (a.mode != Recording ==> !Recorder.IsRecording(a.recorder))
    && (a.overlay.overlayVisible <==> a.mode == Selecting)
    && (a.mode == Selecting ==> a.overlay.selection.None?)
    && (a.overlay.toolbar.visible <==> a.mode == Ready || a.mode == Recording)
    && (a.mode == Ready || a.mode == Recording ==>
          a.overlay.selection.Some? && a.overlay.border.rect == a.overlay.selection)
    && (a.overlay.toolbar.recording <==> a.mode == Recording)
    && (a.overlay.border.recording <==> a.mode == Recording)
    && (a.overlay.border.visible ==> a.mode != Idle)
    && Config.DefaultConfig.Keys <= a.settings.Keys
  }

  lemma InitialInv(f: Config.StoredFile)
    ensures Inv(Initial(f))
  {
    Overlay.InitialGood();
  }

  lemma HotkeyKeepsInv(a: State, w: World)
    requires Inv(a)
    ensures Inv(OnHotkey(a, w))
  {
  }

  lemma DeliverKeepsInv(a: State, e: Overlay.Event, l: Recorder.Launch)
    requires Inv(a) && Enabled(a, Window(e))
    ensures Inv(Deliver(a, e, l))
  {
    if e.OverlayPress? || e.OverlayMotion? || e.OverlayRelease? || e.KeyPress? {
      OverlayEventKeepsInv(a, e, l);
    } else if e.BorderPress? || e.BorderMotion? || e.BorderRelease? {
      BorderEventKeepsInv(a, e, l);
    } else {
      ToolbarEventKeepsInv(a, e, l);
    }
  }

  lemma OverlayEventKeepsInv(a: State, e: Overlay.Event, l: Recorder.Launch)
    requires Inv(a) && Enabled(a, Window(e))
    requires e.OverlayPress? || e.OverlayMotion? || e.OverlayRelease? || e.KeyPress?
    ensures Inv(Deliver(a, e, l))
  {
    Overlay.StepKeepsGood(a.overlay, e);
  }

  lemma BorderEventKeepsInv(a: State, e: Overlay.Event, l: Recorder.Launch)
    requires Inv(a) && Enabled(a, Window(e))
    requires e.BorderPress? || e.BorderMotion? || e.BorderRelease?
    ensures Inv(Deliver(a, e, l))
  {
    Overlay.StepKeepsGood(a.overlay, e);
  }

  lemma ToolbarEventKeepsInv(a: State, e: Overlay.Event, l: Recorder.Launch)
    requires Inv(a) && Enabled(a, Window(e))
    requires e.ToolbarPress? || e.ToolbarMotion? || e.ToolbarRelease? || e.ToolbarStart? || e.ToolbarAbort?
    ensures Inv(Deliver(a, e, l))
  {
    Overlay.StepKeepsGood(a.overlay, e);
  }

  /** Every event the application can receive keeps the invariant. */
  lemma StepKeepsInv(a: State, e: Event, w: World)
    requires Inv(a) && Enabled(a, e)
    ensures Inv(Step(a, e, w))
  {
    match e
    case Hotkey => HotkeyKeepsInv(a, w);
    case Window(oe) => DeliverKeepsInv(a, oe, w.launch);
    case _ =>
  }

  // ---------------------------------------------------------------------
  // Properties of the transitions
  // ---------------------------------------------------------------------

  /** The selection changes only as `on_selection_complete` sets it (to a
      valid selection, entering ready from selecting) or as `on_cancel` and
      `stop_recording` clear it (entering idle). */
  lemma SelectionChangesOnlyOnCompleteOrClear(a: State, e: Event, w: World)
    requires Inv(a) && Enabled(a, e)
    ensures var a' := Step(a, e, w);
            a'.selection != a.selection ==>
              (a.mode == Selecting && a'.mode == Ready && a'.selection.Some? && ValidSelection(a'.selection.value))
              || (a'.mode == Idle && a'.selection.None?)
  {
    StepKeepsInv(a, e, w);
    if e.Window? {
      Overlay.StepKeepsGood(a.overlay, e.e);
    }
  }

  /** The tray only ever starts a selection from idle: the left click is
      ignored otherwise, and the "Record" item cannot be chosen. */
  lemma TrayOnlyFromIdle(a: State, w: World)
    ensures a.mode != Idle ==> Step(a, TrayActivateEvent, w) == a && !Enabled(a, TrayRecord)
    ensures a.mode == Idle && a.running ==>
              Enabled(a, TrayRecord) && Step(a, TrayActivateEvent, w) == Step(a, TrayRecord, w)
              && Step(a, TrayRecord, w).mode == Selecting
  {
  }

  /** Quitting, and the clean-up that follows the main loop, leave no
      encoder running, whatever the mode. */
  lemma QuitStopsRecording(a: State)
    ensures !Recorder.IsRecording(Quit(a).recorder)
    ensures !Recorder.IsRecording(Shutdown(Quit(a)).recorder) && Shutdown(Quit(a)).recorder == Quit(a).recorder
  {
  }

  /** Pressing the hotkey when ready starts an encoder that captures the
      selection inset by one pixel on each side, at exactly `w-2` by `h-2`,
      at the configured frame rate and CRF, with audio exactly when the
      resolved source is a non-empty string. */
  lemma ReadyHotkeyRecordsInset(a: State, w: World)
    requires Inv(a) && a.mode == Ready && Recorder.Spawns(a.settings, w.launch)
    ensures var a' := Step(a, Hotkey, w);
            && a'.mode == Recording && Recorder.IsRecording(a'.recorder) && a.selection.Some?
            && Recorder.RecordsSelection(a.settings, w.launch, a.selection.value, a'.recorder.process.value.argv)
  {
    var sel := a.selection.value;
    HotkeyWhenReady(a, w);
    Recorder.StartedEncoder(a.settings, w.launch, sel);
  }

  // ---------------------------------------------------------------------
  // Recording a moved selection
  // ---------------------------------------------------------------------

  /** Pressing the toolbar while ready only starts tracking the drag. */
  lemma ToolbarPressed(a: State, p: Overlay.Point, w: World)
    requires Inv(a) && a.mode == Ready && a.running
    ensures Enabled(a, Window(Overlay.ToolbarPress(1, p)))
    ensures Step(a, Window(Overlay.ToolbarPress(1, p)), w)
            == a.(overlay := a.overlay.(toolbar := a.overlay.toolbar.(drag := Overlay.Tracker(true, p))))
    ensures Inv(Step(a, Window(Overlay.ToolbarPress(1, p)), w))
  {
    StepKeepsInv(a, Window(Overlay.ToolbarPress(1, p)), w);
  }

  /** Grabbing the toolbar at `p` and moving the pointer by `d` while ready
      moves the overlay's selection and the border by `d`; nothing else of
      the application changes. */
  lemma ToolbarDrag(a: State, p: Overlay.Point, d: Overlay.Point, tw: int, w: World, a1: State, a2: State)
    requires Inv(a) && a.mode == Ready && a.running
    requires a1 == Step(a, Window(Overlay.ToolbarPress(1, p)), w)
    requires a2 == Step(a1, Window(Overlay.ToolbarMotion(Overlay.Point(p.x + d.x, p.y + d.y), tw)), w)
    ensures Enabled(a, Window(Overlay.ToolbarPress(1, p)))
    ensures Enabled(a1, Window(Overlay.ToolbarMotion(Overlay.Point(p.x + d.x, p.y + d.y), tw)))
    ensures Inv(a2)
    ensures a2 == a.(overlay := a2.overlay)
    ensures a2.overlay.selection == Some(Translate(a.overlay.selection.value, d.x, d.y))
    ensures a2.overlay.border.rect == a2.overlay.selection
  {
    var q := Overlay.Point(p.x + d.x, p.y + d.y);
    var move := Window(Overlay.ToolbarMotion(q, tw));
    var m1 := a.overlay.(toolbar := a.overlay.toolbar.(drag := Overlay.Tracker(true, p)));
    ToolbarPressed(a, p, w);
    var m2 := m1.(toolbar := m1.toolbar.(drag := Overlay.Tracker(true, q)));
    assert Overlay.Step(m1, Overlay.ToolbarMotion(q, tw)) == Overlay.Outcome(Overlay.OnDrag(m2, d, tw), Overlay.Quiet);
    assert a2 == a1.(overlay := Overlay.OnDrag(m2, d, tw));
    StepKeepsInv(a1, move, w);
  }

  /** Dragging the toolbar by `d` right after a selection is made moves
      the overlay's selection and the border, but `start_recording` as
      written still captures the selection stored before the drag. */
  lemma DraggedSelectionNotRecorded(a: State, p: Overlay.Point, d: Overlay.Point, tw: int, w: World)
    requires Inv(a) && a.mode == Ready && a.running && a.overlay.selection == a.selection
    requires Recorder.Spawns(a.settings, w.launch)
    requires d.x != 0 || d.y != 0
    ensures var a1 := Step(a, Window(Overlay.ToolbarPress(1, p)), w);
            var a2 := Step(a1, Window(Overlay.ToolbarMotion(Overlay.Point(p.x + d.x, p.y + d.y), tw)), w);
            var a3 := Step(a2, Hotkey, w);
            var sel := a.selection.value;
            && a3.overlay.border.rect == Some(Translate(sel, d.x, d.y))
            && a3.recorder.process == Some(Recorder.Process(Recorder.StartCommand(a.settings, w.launch, sel.x, sel.y, sel.w, sel.h)))
            && Translate(sel, d.x, d.y) != sel
  {
    var a1 := Step(a, Window(Overlay.ToolbarPress(1, p)), w);
    var a2 := Step(a1, Window(Overlay.ToolbarMotion(Overlay.Point(p.x + d.x, p.y + d.y), tw)), w);
    ToolbarDrag(a, p, d, tw, w, a1, a2);
    HotkeyWhenReady(a2, w);
  }

  /** The hotkey when ready runs `start_recording` on the stored selection
      and leaves the border where it is. */
  lemma HotkeyWhenReady(a: State, w: World)
    requires a.mode == Ready && a.selection.Some? && Recorder.Spawns(a.settings, w.launch)
    ensures var sel := a.selection.value;
            && Step(a, Hotkey, w).mode == Recording
            && Step(a, Hotkey, w).recorder.process
               == Some(Recorder.Process(Recorder.StartCommand(a.settings, w.launch, sel.x, sel.y, sel.w, sel.h)))
            && Step(a, Hotkey, w).overlay.border.rect == a.overlay.border.rect
  {
    assert Step(a, Hotkey, w) == StartRecording(a, w.launch);
  }

  /** `start_recording` reading the overlay's current selection, which
      drags keep up to date. */
  function StartRecordingFromOverlay(a: State, l: Recorder.Launch): (a': State)
    ensures a'.mode == Recording
    ensures a'.overlay.toolbar.recording && a'.overlay.border.recording
    ensures a'.overlay.selection == a.overlay.selection && a'.overlay.border.rect == a.overlay.border.rect
    ensures a.overlay.selection.Some? && Recorder.Spawns(a.settings, l) ==>
              var r := a.overlay.selection.value;
              Recorder.IsRecording(a'.recorder)
              && a'.recorder.process.value.argv == Recorder.StartCommand(a.settings, l, r.x, r.y, r.w, r.h)
  {
    StartRecording(a.(selection := a.overlay.selection), l)
  }

  /** With the corrected `start_recording`, what is captured is always the
      inset of the rectangle the border frames, however the selection was
      dragged. */
  lemma RecordsFramedRegion(a: State, l: Recorder.Launch)
    requires Inv(a) && a.mode == Ready && Recorder.Spawns(a.settings, l)
    ensures var a' := StartRecordingFromOverlay(a, l);
            var framed := a.overlay.border.rect.value;
            && a.overlay.border.rect.Some?
            && Recorder.IsRecording(a'.recorder)
            && a'.recorder.process.value.argv == Recorder.StartCommand(a.settings, l, framed.x, framed.y, framed.w, framed.h)
            && Recorder.CaptureRegion(framed.x, framed.y, framed.w, framed.h)
               == Rect(framed.x + 1, framed.y + 1, framed.w - 2, framed.h - 2)
  {
    var framed := a.overlay.border.rect.value;
    Recorder.SelectionInsetExact(framed);
  }

  /** After the same drag, the corrected `start_recording` captures the
      moved selection. */
  lemma DraggedSelectionRecorded(a: State, p: Overlay.Point, d: Overlay.Point, tw: int, w: World)
    requires Inv(a) && a.mode == Ready && a.running
    requires Recorder.Spawns(a.settings, w.launch)
    ensures var a1 := Step(a, Window(Overlay.ToolbarPress(1, p)), w);
            var a2 := Step(a1, Window(Overlay.ToolbarMotion(Overlay.Point(p.x + d.x, p.y + d.y), tw)), w);
            var moved := Translate(a.overlay.selection.value, d.x, d.y);
            && a2.overlay.border.rect == Some(moved)
            && StartRecordingFromOverlay(a2, w.launch).recorder.process
               == Some(Recorder.Process(Recorder.StartCommand(a.settings, w.launch, moved.x, moved.y, moved.w, moved.h)))
  {
    var a1 := Step(a, Window(Overlay.ToolbarPress(1, p)), w);
    var a2 := Step(a1, Window(Overlay.ToolbarMotion(Overlay.Point(p.x + d.x, p.y + d.y), tw)), w);
    ToolbarDrag(a, p, d, tw, w, a1, a2);
  }

  // ---------------------------------------------------------------------
  // Keeping the hotkey listener in step with the settings
  // ---------------------------------------------------------------------

  /** The listener waits for the stored hotkey, and the settings window
      (once built) compares against it. */
  predicate Synced(a: State) {
    "hotkey" in a.settings && a.listener == a.settings["hotkey"]
    && (a.window.Some? ==> a.window.value == a.settings["hotkey"])
  }

  /** As written, the window keeps the hotkey read when it was first built:
      changing the hotkey and later changing it back leaves the listener on
      the intermediate hotkey while the settings hold the original one. */
  lemma ListenerLeftOnOldHotkey(a: State, f1: SettingsWindow.Form, f2: SettingsWindow.Form)
    requires Synced(a) && a.window.None? && a.running
    requires a.settings["hotkey"] == Config.Str(f2.hotkey) && f1.hotkey != f2.hotkey
    ensures var a3 := SaveSettings(SaveSettings(OpenSettings(a), f1), f2);
            a3.settings["hotkey"] == Config.Str(f2.hotkey) && a3.listener == Config.Str(f1.hotkey)
            && a3.listener != a3.settings["hotkey"]
  {
  }

  /** Save with the window's reference hotkey refreshed to the one just
      saved, as the change test evidently intends. */
  function SaveSettingsRefreshed(a: State, f: SettingsWindow.Form): (a': State)
    ensures a.window.None? ==> a' == a
    ensures a.window.Some? ==> a'.settings == SettingsWindow.Save(a.settings, a.window.value, f).settings
                               && a'.window == Some(Config.Str(f.hotkey))
  {
    match SaveSettings(a, f).window
    case None => a
    case Some(_) => SaveSettings(a, f).(window := Some(Config.Str(f.hotkey)))
  }

  /** With the refreshed reference, the listener always waits for the
      stored hotkey, and is restarted exactly when the saved hotkey differs
      from the one it was waiting for. */
  lemma RefreshedSaveKeepsListenerSynced(a: State, f: SettingsWindow.Form)
    requires Synced(a)
    ensures Synced(OpenSettings(a))
    ensures Synced(SaveSettingsRefreshed(a, f))
    ensures a.window.Some? ==>
              (SaveSettingsRefreshed(a, f).listener != a.listener <==> Config.Str(f.hotkey) != a.listener)
  {
  }
}

=== FILE: config.dfy ===
/**
 * The settings store: the quality-profile table, the default settings, the
 * merge performed on load, the profile getter and setter, the CRF lookup,
 * the resolution of the audio source, and the parsing of the `pactl` source
 * listing. Reading and writing the JSON file and running `pactl` happen
 * outside; their results are parameters here.
 */
module Config {
  import opened Wrappers
  import opened Text
  import opened Decimal

  /** A JSON value as stored in the settings file (lists, objects and
      floats are not modelled). */
  datatype Value = Str(s: string) | Int(i: int) | Bool(b: bool) | Null

  type Settings = map<string, Value>

  /** `str(v)`, as used to put a setting on the command line. */
  function PyStr(v: Value): string {
    match v
    case Str(s) => s
    case Int(i) => IntToString(i)
    case Bool(b) => if b then "True" else "False"
    case Null => "None"
  }

  /** One entry of `QUALITY_PROFILES`: name -> (CRF value, description). */
  datatype Profile = Profile(name: string, crf: int, description: string)

  const QualityProfiles: seq<Profile> := [
    Profile("lossless", 0, "Lossless - Very large files"),
    Profile("high", 18, "High - Large files, excellent quality"),
    Profile("medium", 23, "Medium - Balanced quality and size"),
    Profile("low", 28, "Low - Smaller files, good quality"),
    Profile("tiny", 35, "Tiny - Small files, reduced quality")
  ]

  /** The profile used when none is stored, and its CRF. */
  const DefaultProfile: string := "medium"
  const DefaultCrf: int := 23

  /** Every CRF value the table can produce. */
  const Crfs: set<int> := {0, 18, 23, 28, 35}

  /** The CRF of the first profile called `name` in `profiles`. */
  function FindCrf(profiles: seq<Profile>, name: string): (r: Option<int>)
    ensures r.Some? <==> exists i :: 0 <= i < |profiles| && profiles[i].name == name
    ensures r.Some? ==> exists i :: 0 <= i < |profiles| && profiles[i].name == name && profiles[i].crf == r.value
    decreases |profiles|
  {
    if |profiles| == 0 then None
    else if profiles[0].name == name then Some(profiles[0].crf)
    else
      var r := FindCrf(profiles[1..], name);
      assert forall i :: 1 <= i < |profiles| ==> profiles[1..][i - 1] == profiles[i];
      r
  }

  /** `name in QUALITY_PROFILES`, and the CRF it maps to. */
  function ProfileCrf(name: string): (r: Option<int>)
    ensures r.Some? ==> r.value in Crfs
    ensures r.Some? <==> name in {"lossless", "high", "medium", "low", "tiny"}
  {
    FindCrf(QualityProfiles, name)
  }

  predicate IsProfile(name: string) { ProfileCrf(name).Some? }

  /** The table as the source writes it. */
  lemma ProfileTable()
    ensures ProfileCrf("lossless") == Some(0) && ProfileCrf("high") == Some(18)
    ensures ProfileCrf("medium") == Some(DefaultCrf) && ProfileCrf("low") == Some(28)
    ensures ProfileCrf("tiny") == Some(35)
  {
    LaterProfiles();
    LowProfile();
    TinyProfile();
  }

  lemma LaterProfiles()
    ensures ProfileCrf("high") == Some(18) && ProfileCrf("medium") == Some(23)
  {
    assert QualityProfiles[1..][1..] == QualityProfiles[2..];
  }

  lemma LowProfile()
    ensures ProfileCrf("low") == Some(28)
  {
    assert QualityProfiles[1..][1..] == QualityProfiles[2..];
    assert QualityProfiles[2..][1..] == QualityProfiles[3..];
  }

  lemma TinyProfile()
    ensures ProfileCrf("tiny") == Some(35)
  {
    assert QualityProfiles[1..][1..] == QualityProfiles[2..];
    assert QualityProfiles[2..][1..] == QualityProfiles[3..];
    assert QualityProfiles[3..][1..] == QualityProfiles[4..];
  }

  const DefaultConfig: Settings := map[
    "hotkey" := Str("<cmd>+<shift>+c"),
    "hotkey_gif" := Str("<cmd>+<shift>+g"),
    "output_dir" := Str("~/Videos/Recordings"),
    "framerate" := Int(30),
    "gif_framerate" := Int(15),
    "quality_profile" := Str(DefaultProfile),
    "audio_source" := Str("auto")
  ]

  /** What reading the settings file produced: no file (the defaults are then
      written out), a file that could not be read or decoded, or the object
      it held. */
  datatype StoredFile = Missing | Unreadable | Parsed(entries: Settings)

  /** `Config()`: start from the defaults and `update` them with the stored
      object. Every default key is present afterwards; stored keys win over
      defaults; stored keys unknown to the defaults are kept. */
  function Load(f: StoredFile): (c: Settings)
    ensures DefaultConfig.Keys <= c.Keys
    ensures !f.Parsed? ==> c == DefaultConfig
    ensures f.Parsed? ==> c.Keys == DefaultConfig.Keys + f.entries.Keys
    ensures f.Parsed? ==> forall k :: k in f.entries ==> c[k] == f.entries[k]
    ensures f.Parsed? ==> forall k :: k in DefaultConfig && k !in f.entries ==> c[k] == DefaultConfig[k]
  {
    match f
    case Parsed(entries) => DefaultConfig + entries
    case _ => DefaultConfig
  }

  /** Saving the settings and loading them again gives the same settings. */
  lemma SaveLoadRoundTrip(f: StoredFile)
    ensures Load(Parsed(Load(f))) == Load(f)
  {
    var c := Load(f);
    assert DefaultConfig + c == c;
  }

  /** The `quality_profile` getter: the stored value, `"medium"` if absent. */
  function QualityProfile(c: Settings): (v: Value)
    ensures "quality_profile" !in c ==> v == Str(DefaultProfile)
    ensures "quality_profile" in c ==> v == c["quality_profile"]
  {
    if "quality_profile" in c then c["quality_profile"] else Str(DefaultProfile)
  }

  /** The `quality_profile` setter: a known profile name is stored, anything
      else (including no selection at all) leaves the settings unchanged. */
  function SetQualityProfile(c: Settings, v: Option<string>): (c': Settings)
    ensures v.Some? && IsProfile(v.value) ==> c' == c["quality_profile" := Str(v.value)]
    ensures !(v.Some? && IsProfile(v.value)) ==> c' == c
  {
    if v.Some? && IsProfile(v.value) then c["quality_profile" := Str(v.value)] else c
  }

  /** `video_quality`: the CRF of the stored profile, or 23 when the stored
      value is not a profile name. */
  function VideoQuality(c: Settings): (crf: int)
    ensures crf in Crfs
    ensures (QualityProfile(c).Str? && IsProfile(QualityProfile(c).s)) ==> Some(crf) == ProfileCrf(QualityProfile(c).s)
    ensures !(QualityProfile(c).Str? && IsProfile(QualityProfile(c).s)) ==> crf == DefaultCrf
  {
    match QualityProfile(c)
    case Str(p) => ProfileCrf(p).GetOr(DefaultCrf)
    case _ => DefaultCrf
  }

  /** What the setter stores is what the CRF lookup then finds; a rejected
      name keeps the CRF in force. */
  lemma SetThenQuality(c: Settings, v: Option<string>)
    ensures v.Some? && IsProfile(v.value) ==> Some(VideoQuality(SetQualityProfile(c, v))) == ProfileCrf(v.value)
    ensures !(v.Some? && IsProfile(v.value)) ==> VideoQuality(SetQualityProfile(c, v)) == VideoQuality(c)
  {
  }

  /** Fresh settings encode at CRF 23. */
  lemma DefaultQuality(f: StoredFile)
    requires !f.Parsed? || "quality_profile" !in f.entries
    ensures VideoQuality(Load(f)) == DefaultCrf
  {
  }

  /** Python's truth test on a setting: the empty string, zero, `False` and
      `None` are false. */
  predicate Truthy(v: Value) {
    match v
    case Str(s) => s != ""
    case Int(i) => i != 0
    case Bool(b) => b
    case Null => false
  }

  /** `get_resolved_audio_source`, with Python's `None` as `Null`: `"none"`
      means no audio; `"auto"` means the monitor of the default sink, or no
      audio when `pactl` failed (`defaultSink` is its stdout, or `None` on
      failure); any other stored value, string or not, is returned as it is. */
  function ResolvedAudioSource(c: Settings, defaultSink: Option<string>): (r: Value)
    requires "audio_source" in c
    ensures c["audio_source"] == Str("none") ==> r == Null
    ensures c["audio_source"] == Str("auto") ==>
              (r.Null? <==> defaultSink.None?)
              && (defaultSink.Some? ==> r.Str? && EndsWith(r.s, ".monitor") && r.s[..|r.s| - 8] == Strip(defaultSink.value))
    ensures c["audio_source"] != Str("none") && c["audio_source"] != Str("auto") ==> r == c["audio_source"]
  {
    match c["audio_source"]
    case Str(name) =>
      if name == "none" then Null
      else if name == "auto" then
        match defaultSink
        case None => Null
        case Some(out) => EndsWithAppend(Strip(out), ".monitor"); Str(Strip(out) + ".monitor")
      else Str(name)
    case other => other
  }

  /** One choice offered in the audio-source drop-down. */
  datatype SourceEntry = SourceEntry(id: string, caption: string)

  const FixedSources: seq<SourceEntry> := [SourceEntry("auto", "Auto-detect"), SourceEntry("none", "No audio")]

  /** A line of `pactl list short sources` that names a monitor source: it
      mentions `.monitor` and has at least two tab-separated fields. */
  predicate IsMonitorLine(line: string) {
    Contains(line, ".monitor") && |Split(line, '\t')| >= 2
  }

  /** The source name with `alsa_output.` and `.monitor` removed. */
  function ShortName(source: string): string {
    Replace(Replace(source, "alsa_output.", ""), ".monitor", "")
  }

  /** The compact friendly name: drop `alsa_output.` and `.monitor`, turn `_`
      and `-` into spaces, capitalise each word. A letter is upper case
      exactly when it starts a word (no letter before it), and lower case
      otherwise; every other character is kept. */
  function FriendlyName(source: string): (caption: string)
    ensures var short := ShortName(source);
            && |caption| == |short|
            && (forall i :: 0 <= i < |short| && (short[i] == '_' || short[i] == '-') ==> caption[i] == ' ')
            && (forall i :: 0 <= i < |short| && !IsAsciiLetter(short[i]) && short[i] != '_' && short[i] != '-' ==>
                  caption[i] == short[i])
            && (forall i :: 0 <= i < |short| && IsAsciiLetter(short[i]) ==>
                  caption[i] == (if i > 0 && IsAsciiLetter(short[i - 1]) then ToLowerChar(short[i]) else ToUpperChar(short[i])))
    ensures '_' !in caption && '-' !in caption
  {
    var short := ShortName(source);
    SpacedTitle(short);
    Title(Replace(Replace(short, "_", " "), "-", " "))
  }

  /** Title case after turning `_` and `-` into spaces. */
  lemma SpacedTitle(short: string)
    ensures var caption := Title(Replace(Replace(short, "_", " "), "-", " "));
            && |caption| == |short|
            && (forall i :: 0 <= i < |short| && (short[i] == '_' || short[i] == '-') ==> caption[i] == ' ')
            && (forall i :: 0 <= i < |short| && !IsAsciiLetter(short[i]) && short[i] != '_' && short[i] != '-' ==>
                  caption[i] == short[i])
            && (forall i :: 0 <= i < |short| && IsAsciiLetter(short[i]) ==>
                  caption[i] == (if i > 0 && IsAsciiLetter(short[i - 1]) then ToLowerChar(short[i]) else ToUpperChar(short[i])))
            && '_' !in caption && '-' !in caption
  {
    var underscores := Replace(short, "_", " ");
    var spaced := Replace(underscores, "-", " ");
    ReplaceCharRemoves(short, '_', ' ');
    ReplaceChar(short, '_', ' ');
    ReplaceCharRemoves(underscores, '-', ' ');
    ReplaceChar(underscores, '-', ' ');
    assert forall i :: 0 <= i < |short| ==> (IsAsciiLetter(spaced[i]) <==> IsAsciiLetter(short[i]));
  }

  /** The entry a monitor line contributes: its second field and a caption. */
  function EntryFor(line: string): SourceEntry
    requires IsMonitorLine(line)
  {
    var name := Split(line, '\t')[1];
    SourceEntry(name, FriendlyName(name))
  }

  /** `entries` are exactly the entries of the monitor lines among `lines`:
      each comes from such a line, and each such line gave one. */
  ghost predicate Describes(entries: seq<SourceEntry>, lines: seq<string>) {
    && (forall e :: e in entries ==>
          exists i :: 0 <= i < |lines| && IsMonitorLine(lines[i]) && e == EntryFor(lines[i]))
    && (forall i :: 0 <= i < |lines| && IsMonitorLine(lines[i]) ==> EntryFor(lines[i]) in entries)
  }

  /** The positions of the monitor lines among the first `n` of `lines`. */
  ghost function MonitorIndices(lines: seq<string>, n: nat): (idx: seq<nat>)
    requires n <= |lines|
    ensures forall k :: 0 <= k < |idx| ==> idx[k] < n
    decreases n
  {
    if n == 0 then []
    else MonitorIndices(lines, n - 1) + (if IsMonitorLine(lines[n - 1]) then [n - 1] else [])
  }

  /** They are listed in increasing order, each is a monitor line, and every
      monitor line below `n` is listed. */
  lemma {:induction false} MonitorIndicesSpec(lines: seq<string>, n: nat)
    requires n <= |lines|
    ensures var idx := MonitorIndices(lines, n);
            && (forall k :: 0 <= k < |idx| ==> IsMonitorLine(lines[idx[k]]))
            && (forall k, l :: 0 <= k < l < |idx| ==> idx[k] < idx[l])
            && (forall i :: 0 <= i < n && IsMonitorLine(lines[i]) ==> i in idx)
  {
    MonitorIndicesSelect(lines, n);
    MonitorIndicesIncrease(lines, n);
    MonitorIndicesComplete(lines, n);
  }

  lemma {:induction false} MonitorIndicesSelect(lines: seq<string>, n: nat)
    requires n <= |lines|
    ensures forall k :: 0 <= k < |MonitorIndices(lines, n)| ==> IsMonitorLine(lines[MonitorIndices(lines, n)[k]])
    decreases n
  {
    if n > 0 {
      MonitorIndicesSelect(lines, n - 1);
    }
  }

  lemma {:induction false} MonitorIndicesIncrease(lines: seq<string>, n: nat)
    requires n <= |lines|
    ensures forall k, l :: 0 <= k < l < |MonitorIndices(lines, n)| ==> MonitorIndices(lines, n)[k] < MonitorIndices(lines, n)[l]
    decreases n
  {
    if n > 0 {
      MonitorIndicesIncrease(lines, n - 1);
    }
  }

  lemma {:induction false} MonitorIndicesComplete(lines: seq<string>, n: nat)
    requires n <= |lines|
    ensures forall i :: 0 <= i < n && IsMonitorLine(lines[i]) ==> i in MonitorIndices(lines, n)
    decreases n
  {
    if n > 0 {
      MonitorIndicesComplete(lines, n - 1);
    }
  }

  /** `a` is `b` with every position one higher, after `h` leading entries. */
  predicate Shifted(a: seq<nat>, b: seq<nat>, h: nat) {
    |a| == h + |b| && forall k :: 0 <= k < |b| ==> a[h + k] == b[k] + 1
  }

  /** Dropping the first line shifts every later position down by one. */
  lemma {:induction false} MonitorIndicesTail(lines: seq<string>, n: nat)
    requires 1 <= n <= |lines|
    ensures Shifted(MonitorIndices(lines, n), MonitorIndices(lines[1..], n - 1), if IsMonitorLine(lines[0]) then 1 else 0)
    ensures IsMonitorLine(lines[0]) ==> MonitorIndices(lines, n)[0] == 0
    decreases n
  {
    if n > 1 {
      MonitorIndicesTail(lines, n - 1);
      assert lines[1..][n - 2] == lines[n - 1];
      var more := if IsMonitorLine(lines[n - 1]) then [n - 2] else [];
      assert MonitorIndices(lines[1..], n - 1) == MonitorIndices(lines[1..], n - 2) + more;
      ShiftAppend(MonitorIndices(lines, n - 1), MonitorIndices(lines[1..], n - 2),
                  if IsMonitorLine(lines[0]) then 1 else 0,
                  if IsMonitorLine(lines[n - 1]) then [n - 1] else [], more);
    }
  }

  /** Extending both sides of a shifted match keeps it shifted. */
  lemma ShiftAppend(a: seq<nat>, b: seq<nat>, h: nat, extraA: seq<nat>, extraB: seq<nat>)
    requires Shifted(a, b, h) && Shifted(extraA, extraB, 0)
    ensures Shifted(a + extraA, b + extraB, h)
    ensures forall k :: 0 <= k < |a| ==> (a + extraA)[k] == a[k]
  {
    forall k | 0 <= k < |b + extraB|
      ensures (a + extraA)[h + k] == (b + extraB)[k] + 1
    {
      if k >= |b| {
        assert (a + extraA)[h + k] == extraA[0 + (k - |b|)];
      }
    }
  }

  /** The lines `get_audio_sources`' loop keeps, in their order. */
  function MonitorLines(lines: seq<string>): (kept: seq<string>)
    ensures forall line :: line in kept ==> IsMonitorLine(line)
    decreases |lines|
  {
    if |lines| == 0 then []
    else if IsMonitorLine(lines[0]) then [lines[0]] + MonitorLines(lines[1..])
    else MonitorLines(lines[1..])
  }

  /** They are exactly the monitor lines, in the order of the listing. */
  lemma {:induction false} MonitorLinesInOrder(lines: seq<string>)
    ensures var kept := MonitorLines(lines);
            var idx := MonitorIndices(lines, |lines|);
            && |kept| == |idx|
            && forall j :: 0 <= j < |idx| ==> kept[j] == lines[idx[j]]
    decreases |lines|
  {
    if |lines| > 0 {
      var kept := MonitorLines(lines);
      var rest := MonitorLines(lines[1..]);
      var idx := MonitorIndices(lines, |lines|);
      var tail := MonitorIndices(lines[1..], |lines| - 1);
      MonitorLinesInOrder(lines[1..]);
      MonitorIndicesTail(lines, |lines|);
      var h := if IsMonitorLine(lines[0]) then 1 else 0;
      assert h == 1 ==> kept == [lines[0]] + rest;
      assert h == 0 ==> kept == rest;
      ShiftIndices(lines, kept, rest, idx, tail, h);
    }
  }

  /** Matching `kept` against `lines` through `idx`, given the match of the
      rest against the tail of `lines` (optionally after one leading match). */
  lemma ShiftIndices<T>(lines: seq<T>, kept: seq<T>, rest: seq<T>, idx: seq<nat>, tail: seq<nat>, h: nat)
    requires |lines| > 0 && h <= 1 && Shifted(idx, tail, h)
    requires |kept| == h + |rest| && |rest| == |tail|
    requires h == 1 ==> idx[0] == 0 && kept[0] == lines[0]
    requires forall k :: 0 <= k < |rest| ==> kept[h + k] == rest[k]
    requires forall k :: 0 <= k < |tail| ==> tail[k] < |lines| - 1 && rest[k] == lines[1..][tail[k]]
    ensures forall j :: 0 <= j < |idx| ==> idx[j] < |lines| && kept[j] == lines[idx[j]]
  {
    forall j | 0 <= j < |idx|
      ensures idx[j] < |lines| && kept[j] == lines[idx[j]]
    {
      if j >= h {
        var k := j - h;
        assert idx[h + k] == tail[k] + 1 && kept[h + k] == rest[k];
      }
    }
  }

  /** `get_audio_sources`' loop: the entry of each monitor line, in order. */
  function MonitorEntries(lines: seq<string>): (entries: seq<SourceEntry>)
    ensures var kept := MonitorLines(lines);
            && |entries| == |kept|
            && forall j :: 0 <= j < |kept| ==> entries[j] == EntryFor(kept[j])
  {
    var kept := MonitorLines(lines);
    seq(|kept|, j requires 0 <= j < |kept| => EntryFor(kept[j]))
  }

  /** Hence one entry per monitor line, in the order of the lines. */
  lemma EntriesInOrder(lines: seq<string>)
    ensures var entries := MonitorEntries(lines);
            var idx := MonitorIndices(lines, |lines|);
            && |entries| == |idx|
            && forall j :: 0 <= j < |idx| ==> IsMonitorLine(lines[idx[j]]) && entries[j] == EntryFor(lines[idx[j]])
  {
    var kept := MonitorLines(lines);
    MonitorLinesInOrder(lines);
    assert forall j :: 0 <= j < |kept| ==> kept[j] in kept;
  }

  /** So the entries are exactly those of the monitor lines. */
  lemma EntriesDescribeLines(lines: seq<string>)
    ensures Describes(MonitorEntries(lines), lines)
  {
    var entries := MonitorEntries(lines);
    var idx := MonitorIndices(lines, |lines|);
    MonitorIndicesSpec(lines, |lines|);
    EntriesInOrder(lines);
    forall e | e in entries
      ensures exists i :: 0 <= i < |lines| && IsMonitorLine(lines[i]) && e == EntryFor(lines[i])
    {
      var j :| 0 <= j < |entries| && entries[j] == e;
      var i := idx[j];
      assert 0 <= i < |lines| && IsMonitorLine(lines[i]) && e == EntryFor(lines[i]);
    }
    forall i | 0 <= i < |lines| && IsMonitorLine(lines[i])
      ensures EntryFor(lines[i]) in entries
    {
      var k :| 0 <= k < |idx| && idx[k] == i;
      assert entries[k] == EntryFor(lines[i]);
    }
  }

  /** The lines `get_audio_sources` walks through. */
  function ListingLines(listing: string): seq<string> {
    Split(Strip(listing), '\n')
  }

  /** `get_audio_sources`: the two fixed choices, then one entry per monitor
      source that `pactl` listed (`listing` is its stdout, `None` when it
      failed). */
  function AudioSources(listing: Option<string>): (sources: seq<SourceEntry>)
    ensures |sources| >= 2 && sources[..2] == FixedSources
    ensures listing.None? ==> sources == FixedSources
    ensures listing.Some? ==>
              var lines := ListingLines(listing.value);
              var idx := MonitorIndices(lines, |lines|);
              && |sources| == 2 + |idx|
              && (forall j :: 0 <= j < |idx| ==>
                    IsMonitorLine(lines[idx[j]]) && sources[2 + j] == EntryFor(lines[idx[j]]))
              && Describes(sources[2..], lines)
  {
    match listing
    case None => FixedSources
    case Some(out) =>
      FixedThenEntries(ListingLines(out));
      FixedSources + MonitorEntries(ListingLines(out))
  }

  /** The monitor entries placed after the two fixed choices. */
  lemma FixedThenEntries(lines: seq<string>)
    ensures var sources := FixedSources + MonitorEntries(lines);
            var idx := MonitorIndices(lines, |lines|);
            && |sources| == 2 + |idx| && sources[..2] == FixedSources
            && (forall j :: 0 <= j < |idx| ==>
                  IsMonitorLine(lines[idx[j]]) && sources[2 + j] == EntryFor(lines[idx[j]]))
            && Describes(sources[2..], lines)
  {
    var entries := MonitorEntries(lines);
    var sources := FixedSources + entries;
    EntriesDescribeLines(lines);
    EntriesInOrder(lines);
    assert sources[2..] == entries;
    assert sources[..2] == FixedSources;
    forall j | 0 <= j < |entries|
      ensures sources[2 + j] == entries[j]
    {
    }
  }
}

=== FILE: decimal.dfy ===
/**
 * Decimal rendering of integers as Python's `str(n)` and f-strings produce
 * it, zero padding as `strftime` produces it, and the matching parsers.
 */
module Decimal {
  import opened Wrappers

  predicate IsDigit(c: char) { '0' <= c <= '9' }

  predicate AllDigits(s: string) {
    forall i :: 0 <= i < |s| ==> IsDigit(s[i])
  }

  function DigitValue(c: char): nat
    requires IsDigit(c)
  {
    c as int - '0' as int
  }

  function DigitChar(d: nat): (c: char)
    requires d < 10
    ensures IsDigit(c) && DigitValue(c) == d
  {
    ('0' as int + d) as char
  }

  /** `str(n)` for a non-negative `n`: digits only, without leading zeros. */
  function NatToString(n: nat): (s: string)
    ensures |s| >= 1 && AllDigits(s)
    ensures s[0] == '0' ==> n == 0 && |s| == 1
    decreases n
  {
    if n < 10 then [DigitChar(n)] else NatToString(n / 10) + [DigitChar(n % 10)]
  }

  /** The value of a string of decimal digits (the empty string reads as 0). */
  function ParseDigits(s: string): nat
    requires AllDigits(s)
    decreases |s|
  {
    if |s| == 0 then 0 else 10 * ParseDigits(s[..|s| - 1]) + DigitValue(s[|s| - 1])
  }

  lemma {:induction false} ParseNatToString(n: nat)
    ensures ParseDigits(NatToString(n)) == n
    decreases n
  {
    if n >= 10 {
      var s := NatToString(n);
      assert s[..|s| - 1] == NatToString(n / 10);
      ParseNatToString(n / 10);
    }
  }

  /** A numeral as Python prints an `int`: an optional minus sign, then digits. */
  predicate IsNumeral(s: string) {
    |s| >= 1 && forall i :: 0 <= i < |s| ==> IsDigit(s[i]) || (i == 0 && s[i] == '-')
  }

  /** `str(n)` */
  function IntToString(n: int): (s: string)
    ensures IsNumeral(s)
    ensures s[0] == '-' <==> n < 0
  {
    if n < 0 then "-" + NatToString(-n) else NatToString(n)
  }

  /** `int(s)` restricted to what `str` produces: optional `-`, then digits. */
  function ParseInt(s: string): Option<int> {
    if |s| >= 2 && s[0] == '-' && AllDigits(s[1..]) then Some(0 - ParseDigits(s[1..]))
    else if |s| >= 1 && AllDigits(s) then Some(ParseDigits(s))
    else None
  }

  /** Reading back what `str` printed gives the integer again. */
  lemma IntToStringRoundTrip(n: int)
    ensures ParseInt(IntToString(n)) == Some(n)
  {
    var s := IntToString(n);
    if n < 0 {
      assert s[1..] == NatToString(-n);
      ParseNatToString(-n);
    } else {
      ParseNatToString(n);
    }
  }

  function Zeros(k: nat): (z: string)
    ensures |z| == k && AllDigits(z)
    ensures forall i :: 0 <= i < k ==> z[i] == '0'
  {
    if k == 0 then "" else Zeros(k - 1) + "0"
  }

  /** Leading zeros do not change the value of a digit string. */
  lemma {:induction false} ParseLeadingZeros(k: nat, t: string)
    requires AllDigits(t)
    ensures ParseDigits(Zeros(k) + t) == ParseDigits(t)
    decreases |t|
  {
    var z := Zeros(k);
    if |t| == 0 {
      ZerosValue(k);
      assert z + t == z;
    } else {
      var init := t[..|t| - 1];
      assert (z + t)[..|z + t| - 1] == z + init;
      ParseLeadingZeros(k, init);
    }
  }

  lemma {:induction false} ZerosValue(k: nat)
    ensures ParseDigits(Zeros(k)) == 0
    decreases k
  {
    if k > 0 {
      assert Zeros(k)[..k - 1] == Zeros(k - 1);
      ZerosValue(k - 1);
    }
  }

  /** `n` printed with at least `width` digits, padded with leading zeros
      (the `%m`, `%d`, `%H`, ... fields of `strftime`). */
  function ZeroPad(n: nat, width: nat): (s: string)
    ensures AllDigits(s)
    ensures |s| == if |NatToString(n)| < width then width else |NatToString(n)|
    ensures ParseDigits(s) == n
  {
    var digits := NatToString(n);
    ParseNatToString(n);
    if |digits| < width then
      ParseLeadingZeros(width - |digits|, digits);
      Zeros(width - |digits|) + digits
    else digits
  }

  /** A number below `10^width` fills exactly `width` digits once padded. */
  lemma {:induction false} PadWidth(n: nat, width: nat)
    requires 1 <= width && n < Pow10(width)
    ensures |ZeroPad(n, width)| == width
  {
    DigitsBound(n, width);
  }

  function Pow10(k: nat): (p: nat)
    ensures p >= 1
  {
    if k == 0 then 1 else 10 * Pow10(k - 1)
  }

  lemma {:induction false} DigitsBound(n: nat, width: nat)
    requires 1 <= width && n < Pow10(width)
    ensures |NatToString(n)| <= width
    decreases n
  {
    if n >= 10 {
      assert width >= 2;
      DigitsBound(n / 10, width - 1);
    }
  }
}

=== FILE: ffmpeg.dfy ===
/**
 * How an ffmpeg command line of the shape the recorder builds is read:
 * `ffmpeg [-y] (flag value)* output`, where every option before an `-i`
 * belongs to that input and the options after the last `-i` belong to the
 * output file. This is the independent reading against which the
 * recorder's command line is checked.
 */
module Ffmpeg {
  import opened Wrappers

  /** One `flag value` pair of the command line. */
  datatype Opt = Opt(flag: string, value: string)

  /** The pairs written out one after another. */
  function Flatten(opts: seq<Opt>): (args: seq<string>)
    ensures |args| == 2 * |opts|
    ensures forall i :: 0 <= i < |opts| ==> args[2 * i] == opts[i].flag && args[2 * i + 1] == opts[i].value
    decreases |opts|
  {
    if |opts| == 0 then []
    else
      var rest := Flatten(opts[1..]);
      assert forall i :: 1 <= i < |opts| ==> opts[i] == opts[1..][i - 1];
      [opts[0].flag, opts[0].value] + rest
  }

  lemma FlattenAppend(a: seq<Opt>, b: seq<Opt>)
    ensures Flatten(a + b) == Flatten(a) + Flatten(b)
  {
    var l, r := Flatten(a + b), Flatten(a) + Flatten(b);
    assert |l| == |r|;
    forall k | 0 <= k < |l|
      ensures l[k] == r[k]
    {
      var i := k / 2;
      if i < |a| {
        assert (a + b)[i] == a[i];
      } else {
        assert (a + b)[i] == b[i - |a|];
        assert k - 2 * |a| == 2 * (i - |a|) + k % 2;
      }
    }
  }

  /** The arguments read two at a time. */
  function Pairs(args: seq<string>): (opts: seq<Opt>)
    requires |args| % 2 == 0
    ensures |opts| * 2 == |args|
    decreases |args|
  {
    if |args| == 0 then [] else [Opt(args[0], args[1])] + Pairs(args[2..])
  }

  /** Reading back the written pairs gives the pairs. */
  lemma {:induction false} PairsFlatten(opts: seq<Opt>)
    ensures Pairs(Flatten(opts)) == opts
    decreases |opts|
  {
    if |opts| > 0 {
      var args := Flatten(opts);
      assert args[2..] == Flatten(opts[1..]);
      PairsFlatten(opts[1..]);
      assert opts == [Opt(args[0], args[1])] + opts[1..];
    }
  }

  /** A command line as read: program, the global `-y`, the pairs, the output. */
  datatype Invocation = Invocation(program: string, overwrite: bool, options: seq<Opt>, output: string)

  /** Read a command line; `None` when the arguments between the program
      (and `-y`) and the output do not pair up. */
  function Parse(argv: seq<string>): (r: Option<Invocation>)
    ensures r.Some? ==> |argv| >= 2 && r.value.program == argv[0] && r.value.output == argv[|argv| - 1]
  {
    if |argv| < 2 then None
    else
      var overwrite := |argv| >= 3 && argv[1] == "-y";
      var body := if overwrite then argv[2..|argv| - 1] else argv[1..|argv| - 1];
      if |body| % 2 != 0 then None
      else Some(Invocation(argv[0], overwrite, Pairs(body), argv[|argv| - 1]))
  }

  /** The command line of an invocation. */
  function Render(inv: Invocation): seq<string> {
    [inv.program] + (if inv.overwrite then ["-y"] else []) + Flatten(inv.options) + [inv.output]
  }

  /** Rendering then reading gives the invocation back, unless a first option
      named `-y` would be taken for the global flag. */
  lemma ParseRender(inv: Invocation)
    requires inv.overwrite || |inv.options| == 0 || inv.options[0].flag != "-y"
    ensures Parse(Render(inv)) == Some(inv)
  {
    var argv := Render(inv);
    var body := Flatten(inv.options);
    var first := if inv.overwrite then 2 else 1;
    assert argv[first..|argv| - 1] == body;
    if !inv.overwrite && |argv| >= 3 {
      assert argv[1] == body[0];
    }
    PairsFlatten(inv.options);
  }

  /** One input: its per-input options and the `-i` argument. */
  datatype Input = Input(options: seq<Opt>, url: string)

  /** The inputs in order, and the options left for the output file. */
  datatype Plan = Plan(inputs: seq<Input>, outputOptions: seq<Opt>)

  /** Walk the pairs; `pending` holds options not yet claimed by an `-i`. */
  function Group(opts: seq<Opt>, pending: seq<Opt>): (p: Plan)
    decreases |opts|
  {
    if |opts| == 0 then Plan([], pending)
    else if opts[0].flag == "-i" then
      var rest := Group(opts[1..], []);
      Plan([Input(pending, opts[0].value)] + rest.inputs, rest.outputOptions)
    else Group(opts[1..], pending + [opts[0]])
  }

  /** How the options of an invocation distribute over inputs and output. */
  function Layout(opts: seq<Opt>): Plan {
    Group(opts, [])
  }

  predicate NoInputFlag(opts: seq<Opt>) {
    forall i :: 0 <= i < |opts| ==> opts[i].flag != "-i"
  }

  lemma NoInputAppend(a: seq<Opt>, b: seq<Opt>)
    requires NoInputFlag(a) && NoInputFlag(b)
    ensures NoInputFlag(a + b)
  {
    forall i | 0 <= i < |a + b|
      ensures (a + b)[i].flag != "-i"
    {
      if i < |a| {
        assert (a + b)[i] == a[i];
      } else {
        assert (a + b)[i] == b[i - |a|];
      }
    }
  }

  /** Options without `-i` all wait for the next input. */
  lemma {:induction false} GroupNoInput(a: seq<Opt>, b: seq<Opt>, pending: seq<Opt>)
    requires NoInputFlag(a)
    ensures Group(a + b, pending) == Group(b, pending + a)
    decreases |a|
  {
    if |a| > 0 {
      assert (a + b)[1..] == a[1..] + b;
      assert (a + b)[0] == a[0];
      GroupNoInput(a[1..], b, pending + [a[0]]);
      assert pending + [a[0]] + a[1..] == pending + a;
    } else {
      assert a + b == b;
      assert pending + a == pending;
    }
  }

  /** Options without `-i`, then `-i url`: one input with those options. */
  lemma GroupInput(a: seq<Opt>, url: string, b: seq<Opt>)
    requires NoInputFlag(a)
    ensures Group(a + [Opt("-i", url)] + b, []) == Plan([Input(a, url)] + Group(b, []).inputs, Group(b, []).outputOptions)
  {
    GroupNoInput(a, [Opt("-i", url)] + b, []);
    assert a + [Opt("-i", url)] + b == a + ([Opt("-i", url)] + b);
    assert ([Opt("-i", url)] + b)[1..] == b;
    assert [] + a == a;
  }

  /** Options without `-i` at the end all belong to the output. */
  lemma GroupOutput(a: seq<Opt>)
    requires NoInputFlag(a)
    ensures Group(a, []) == Plan([], a)
  {
    GroupNoInput(a, [], []);
    assert a + [] == a;
    assert [] + a == a;
  }

  /** `opts` sets `flag`, and every occurrence of it carries `value`. */
  predicate Sets(opts: seq<Opt>, flag: string, value: string) {
    Opt(flag, value) in opts && forall o :: o in opts && o.flag == flag ==> o.value == value
  }

  /** `opts` does not mention `flag`. */
  predicate Lacks(opts: seq<Opt>, flag: string) {
    forall o :: o in opts ==> o.flag != flag
  }

  lemma SetsAppend(a: seq<Opt>, b: seq<Opt>, flag: string, value: string)
    requires (Sets(a, flag, value) && Lacks(b, flag)) || (Lacks(a, flag) && Sets(b, flag, value))
    ensures Sets(a + b, flag, value)
  {
    forall o | o in a + b && o.flag == flag
      ensures o.value == value
    {
      assert o in a || o in b;
    }
  }

  lemma LacksAppend(a: seq<Opt>, b: seq<Opt>, flag: string)
    requires Lacks(a, flag) && Lacks(b, flag)
    ensures Lacks(a + b, flag)
  {
    forall o | o in a + b
      ensures o.flag != flag
    {
      assert o in a || o in b;
    }
  }
}

=== FILE: geometry.dfy ===
/**
 * Integer screen geometry shared by the overlay and the recorder: the
 * `(x, y, w, h)` tuples of the program, drag normalisation, the snap to even
 * sizes that H.264 with yuv420p needs, growing a rectangle into its border
 * frame, and the box covering every monitor.
 */
module Geometry {

  /** A screen rectangle `(x, y, w, h)`; `(x, y)` is the top-left corner. */
  datatype Rect = Rect(x: int, y: int, w: int, h: int) {
    function Right(): int { x + w }
    function Bottom(): int { y + h }

    /** `other` lies inside this rectangle (edges may touch). */
    predicate Covers(other: Rect) {
      x <= other.x && other.Right() <= Right() && y <= other.y && other.Bottom() <= Bottom()
    }
  }

  function Min(a: int, b: int): int { if a <= b then a else b }
  function Max(a: int, b: int): int { if a >= b then a else b }
  function Abs(a: int): int { if a >= 0 then a else -a }

  /** The rectangle spanned by two opposite corners (`min` and `abs` in the
      source): its left and right edges are the two x coordinates, its top and
      bottom edges the two y coordinates, whichever way the drag went. */
  function Normalize(x1: int, y1: int, x2: int, y2: int): (r: Rect)
    ensures r.w >= 0 && r.h >= 0
    ensures {r.x, r.Right()} == {x1, x2}
    ensures {r.y, r.Bottom()} == {y1, y2}
  {
    Rect(Min(x1, x2), Min(y1, y2), Abs(x2 - x1), Abs(y2 - y1))
  }

  /** Any two opposite corners of a rectangle describe the same rectangle. */
  lemma NormalizeCornerIndependent(x1: int, y1: int, x2: int, y2: int)
    ensures Normalize(x2, y2, x1, y1) == Normalize(x1, y1, x2, y2)
    ensures Normalize(x1, y2, x2, y1) == Normalize(x1, y1, x2, y2)
    ensures Normalize(x2, y1, x1, y2) == Normalize(x1, y1, x2, y2)
  {
  }

  predicate IsEven(n: int) { n % 2 == 0 }

  /** `n - n % 2`: the largest even number not above `n`. Python's `%` with a
      positive divisor never returns a negative remainder, like Dafny's. */
  function SnapEven(n: int): (r: int)
    ensures IsEven(r) && n - 1 <= r <= n
  {
    n - n % 2
  }

  /** `SnapEven` really picks the largest even number not above `n`. */
  lemma SnapEvenGreatest(n: int, e: int)
    requires IsEven(e) && e <= n
    ensures e <= SnapEven(n)
  {
  }

  /** The rectangle moved by `(dx, dy)`, size unchanged. */
  function Translate(r: Rect, dx: int, dy: int): (t: Rect)
    ensures t.w == r.w && t.h == r.h
    ensures t.x - r.x == dx && t.y - r.y == dy
  {
    Rect(r.x + dx, r.y + dy, r.w, r.h)
  }

  /** The rectangle with a margin of `margin` added on every side. */
  function Grow(r: Rect, margin: int): (g: Rect)
    ensures g.x == r.x - margin && g.Right() == r.Right() + margin
    ensures g.y == r.y - margin && g.Bottom() == r.Bottom() + margin
  {
    Rect(r.x - margin, r.y - margin, r.w + 2 * margin, r.h + 2 * margin)
  }

  /** A selection the overlay can hand over: both sides even and at least 10. */
  predicate ValidSelection(r: Rect) {
    IsEven(r.w) && IsEven(r.h) && r.w >= 10 && r.h >= 10
  }

  /** The running `min_x, min_y, max_x, max_y` of the monitor loop. */
  datatype Extent = Extent(minX: int, minY: int, maxX: int, maxY: int)

  function Include(e: Extent, m: Rect): Extent {
    Extent(Min(e.minX, m.x), Min(e.minY, m.y), Max(e.maxX, m.Right()), Max(e.maxY, m.Bottom()))
  }

  /** The extent after the loop has visited `monitors` in order, starting from
      all four values at 0. It reaches the origin, reaches every monitor, and
      every edge is either 0 or the edge of some monitor. */
  function Extents(monitors: seq<Rect>): (e: Extent)
    ensures e.minX <= 0 <= e.maxX && e.minY <= 0 <= e.maxY
    ensures forall i :: 0 <= i < |monitors| ==>
              e.minX <= monitors[i].x && monitors[i].Right() <= e.maxX
              && e.minY <= monitors[i].y && monitors[i].Bottom() <= e.maxY
    ensures e.minX == 0 || exists i :: 0 <= i < |monitors| && monitors[i].x == e.minX
    ensures e.minY == 0 || exists i :: 0 <= i < |monitors| && monitors[i].y == e.minY
    ensures e.maxX == 0 || exists i :: 0 <= i < |monitors| && monitors[i].Right() == e.maxX
    ensures e.maxY == 0 || exists i :: 0 <= i < |monitors| && monitors[i].Bottom() == e.maxY
    decreases |monitors|
  {
    if |monitors| == 0 then Extent(0, 0, 0, 0)
    else
      var prefix := monitors[..|monitors| - 1];
      assert forall i :: 0 <= i < |prefix| ==> prefix[i] == monitors[i];
      Include(Extents(prefix), monitors[|monitors| - 1])
  }

  /** The overlay window: moved to `(min_x, min_y)` and resized to
      `(max_x - min_x, max_y - min_y)`. It covers the origin and every monitor. */
  function OverlayBox(monitors: seq<Rect>): (box: Rect)
    ensures box.x <= 0 <= box.Right() && box.y <= 0 <= box.Bottom()
    ensures forall i :: 0 <= i < |monitors| ==> box.Covers(monitors[i])
  {
    var e := Extents(monitors);
    Rect(e.minX, e.minY, e.maxX - e.minX, e.maxY - e.minY)
  }

  /** No smaller box does: any rectangle covering the origin and every monitor
      covers the overlay box. */
  lemma OverlayBoxSmallest(monitors: seq<Rect>, other: Rect)
    requires other.x <= 0 <= other.Right() && other.y <= 0 <= other.Bottom()
    requires forall i :: 0 <= i < |monitors| ==> other.Covers(monitors[i])
    ensures other.Covers(OverlayBox(monitors))
  {
    var e := Extents(monitors);
    if e.minX != 0 {
      var i :| 0 <= i < |monitors| && monitors[i].x == e.minX;
      assert other.Covers(monitors[i]);
    }
    if e.minY != 0 {
      var i :| 0 <= i < |monitors| && monitors[i].y == e.minY;
      assert other.Covers(monitors[i]);
    }
    if e.maxX != 0 {
      var i :| 0 <= i < |monitors| && monitors[i].Right() == e.maxX;
      assert other.Covers(monitors[i]);
    }
    if e.maxY != 0 {
      var i :| 0 <= i < |monitors| && monitors[i].Bottom() == e.maxY;
      assert other.Covers(monitors[i]);
    }
  }
}

=== FILE: overlay.dfy ===
/**
 * The selection overlay (`SelectionManager`) with its border window
 * (`BorderWindow`) and floating toolbar (`ToolbarWindow`), reduced to the
 * state they keep and the coordinates they pass to `move` and `resize`.
 * Every callback of the source is a function from the old state to the new
 * state plus the notice it sends to the application.
 */
module Overlay {
  import opened Wrappers
  import opened Geometry

  /** `BorderWindow.BORDER_WIDTH`: the draggable frame around the selection. */
  const BorderWidth: int := 6
  /** A released drag must exceed this in both directions to count. */
  const MinDrag: int := 10
  /** Gap between the selection and the toolbar below it. */
  const ToolbarGap: int := 8
  /** Toolbar width assumed when the toolkit reports less than 10 px. */
  const FallbackToolbarWidth: int := 200

  datatype Point = Point(x: int, y: int)

  // ---------------------------------------------------------------------
  // Drag tracking shared by the border window and the toolbar
  // ---------------------------------------------------------------------

  /** `_dragging` with `_drag_start_x/_y`: the pointer position last seen. */
  datatype Tracker = Tracker(dragging: bool, last: Point)

  const Idle: Tracker := Tracker(false, Point(0, 0))

  /** Button press: a left press starts a drag where it is allowed. */
  function TrackPress(t: Tracker, button: int, p: Point, allowed: bool): (t': Tracker)
    ensures t'.dragging <==> (button == 1 && allowed) || (t.dragging && !(button == 1 && allowed))
    ensures button == 1 && allowed ==> t'.last == p
    ensures !(button == 1 && allowed) ==> t' == t
  {
    if button == 1 && allowed then Tracker(true, p) else t
  }

  function TrackRelease(t: Tracker): (t': Tracker)
    ensures !t'.dragging
  {
    t.(dragging := false)
  }

  /** Pointer motion while dragging yields the delta since the last position. */
  datatype Motion = Motion(tracker: Tracker, delta: Option<Point>)

  function TrackMotion(t: Tracker, p: Point): (m: Motion)
    ensures m.delta.Some? <==> t.dragging
    ensures t.dragging ==> m.tracker == Tracker(true, p)
                           && t.last.x + m.delta.value.x == p.x && t.last.y + m.delta.value.y == p.y
    ensures !t.dragging ==> m.tracker == t
  {
    if t.dragging then Motion(Tracker(true, p), Some(Point(p.x - t.last.x, p.y - t.last.y)))
    else Motion(t, None)
  }

  /** The deltas reported for a run of motion events. */
  function Deltas(t: Tracker, path: seq<Point>): seq<Point>
    decreases |path|
  {
    if |path| == 0 then []
    else
      var m := TrackMotion(t, path[0]);
      (if m.delta.Some? then [m.delta.value] else []) + Deltas(m.tracker, path[1..])
  }

  function SumX(ds: seq<Point>): int { if |ds| == 0 then 0 else ds[0].x + SumX(ds[1..]) }
  function SumY(ds: seq<Point>): int { if |ds| == 0 then 0 else ds[0].y + SumY(ds[1..]) }

  /** Dragging from the press point along a path reports deltas that add up to
      the whole displacement: nothing is lost or counted twice. */
  lemma {:induction false} DeltasTelescope(t: Tracker, path: seq<Point>)
    requires t.dragging && |path| > 0
    ensures |Deltas(t, path)| == |path|
    ensures SumX(Deltas(t, path)) == path[|path| - 1].x - t.last.x
    ensures SumY(Deltas(t, path)) == path[|path| - 1].y - t.last.y
    decreases |path|
  {
    var m := TrackMotion(t, path[0]);
    var rest := path[1..];
    if |rest| == 0 {
      assert Deltas(m.tracker, rest) == [];
    } else {
      DeltasTelescope(m.tracker, rest);
      assert rest[|rest| - 1] == path[|path| - 1];
    }
    assert Deltas(t, path) == [m.delta.value] + Deltas(m.tracker, rest);
    assert ([m.delta.value] + Deltas(m.tracker, rest))[1..] == Deltas(m.tracker, rest);
  }

  // ---------------------------------------------------------------------
  // BorderWindow
  // ---------------------------------------------------------------------

  /** `rect` is the selection drawn; `window` is where the window was moved
      and what it was resized to. */
  datatype Border = Border(rect: Option<Rect>, window: Rect, visible: bool, recording: bool, drag: Tracker)

  /** The window is the rectangle grown by the border width on every side. */
  predicate Framed(b: Border) {
    b.rect.Some? ==> b.window == Grow(b.rect.value, BorderWidth)
  }

  /** `update_rect`: the live preview while dragging. An empty rectangle
      leaves the border as it was. */
  function UpdateRect(b: Border, x1: int, y1: int, x2: int, y2: int): (b': Border)
    ensures var r := Normalize(x1, y1, x2, y2);
            if r.w > 0 && r.h > 0 then b'.rect == Some(r) && b'.visible && Framed(b')
            else b' == b
    ensures b'.recording == b.recording && b'.drag == b.drag
  {
    var r := Normalize(x1, y1, x2, y2);
    if r.w > 0 && r.h > 0 then
      b.(rect := Some(r), window := Grow(r, BorderWidth), visible := true)
    else b
  }

  /** `update_from_selection`: match the final snapped selection. */
  function UpdateFromSelection(b: Border, r: Rect): (b': Border)
    ensures b'.rect == Some(r) && Framed(b')
    ensures b'.visible == b.visible && b'.recording == b.recording && b'.drag == b.drag
  {
    b.(rect := Some(r), window := Grow(r, BorderWidth))
  }

  /** `set_position`: move without resizing; nothing happens without a rect. */
  function SetPosition(b: Border, x: int, y: int): (b': Border)
    ensures b.rect.None? ==> b' == b
    ensures b.rect.Some? ==> b'.rect == Some(Rect(x, y, b.rect.value.w, b.rect.value.h))
    ensures b'.window.w == b.window.w && b'.window.h == b.window.h
    ensures b'.visible == b.visible && b'.recording == b.recording && b'.drag == b.drag
    ensures Framed(b) ==> Framed(b')
  {
    match b.rect
    case None => b
    case Some(r) =>
      b.(rect := Some(Rect(x, y, r.w, r.h)),
         window := b.window.(x := x - BorderWidth, y := y - BorderWidth))
  }

  function HideBorder(b: Border): Border { b.(visible := false) }

  /** The input region `_update_input_shape` installs, in window coordinates:
      the whole window, or the window minus a click-through centre. */
  datatype Shape = Solid(w: int, h: int) | FrameOnly(w: int, h: int, centre: Rect)

  /** Nothing is installed without a rect; the centre is cut out exactly when
      the window is wider and taller than two border widths. */
  function InputShape(b: Border): (s: Option<Shape>)
    ensures s.None? <==> b.rect.None?
    ensures s.Some? ==> (s.value.FrameOnly? <==> b.window.w > 2 * BorderWidth && b.window.h > 2 * BorderWidth)
  {
    if b.rect.None? then None
    else
      var w, h := b.window.w, b.window.h;
      if w > 2 * BorderWidth && h > 2 * BorderWidth then
        Some(FrameOnly(w, h, Rect(BorderWidth, BorderWidth, w - 2 * BorderWidth, h - 2 * BorderWidth)))
      else Some(Solid(w, h))
  }

  /** Around a non-empty selection the click-through centre, placed on the
      screen, is exactly the selection: clicks inside reach the captured
      application and only the frame can be dragged. */
  lemma CentreIsSelection(b: Border)
    requires Framed(b) && b.rect.Some? && b.rect.value.w > 0 && b.rect.value.h > 0
    ensures InputShape(b).Some? && InputShape(b).value.FrameOnly?
    ensures Translate(InputShape(b).value.centre, b.window.x, b.window.y) == b.rect.value
  {
  }

  // ---------------------------------------------------------------------
  // ToolbarWindow
  // ---------------------------------------------------------------------

  datatype Toolbar = Toolbar(recording: bool, drag: Tracker, position: Point, visible: bool)

  /** The width `position_below` works with. */
  function EffectiveWidth(reported: int): (w: int)
    ensures w >= 10
    ensures reported < 10 ==> w == FallbackToolbarWidth
    ensures reported >= 10 ==> w == reported
  {
    if reported < 10 then FallbackToolbarWidth else reported
  }

  /** `position_below`: centred under the selection, `8` px below it. Python's
      `//` floors, as Dafny's `/` does for a positive divisor. */
  function PositionBelow(r: Rect, reported: int): (p: Point)
    ensures var tw := EffectiveWidth(reported);
            2 * p.x + tw == 2 * r.x + r.w || 2 * p.x + tw == 2 * r.x + r.w - 1
    ensures p.y == r.Bottom() + ToolbarGap
  {
    var tw := EffectiveWidth(reported);
    Point(r.x + (r.w - tw) / 2, r.y + r.h + ToolbarGap)
  }

  /** The toolbar never overlaps the border frame drawn around the selection. */
  lemma ToolbarClearsFrame(r: Rect, reported: int)
    ensures PositionBelow(r, reported).y > Grow(r, BorderWidth).Bottom()
  {
  }

  function ShowToolbarBelow(t: Toolbar, r: Rect, reported: int): Toolbar {
    t.(position := PositionBelow(r, reported), visible := true)
  }

  function HideToolbar(t: Toolbar): Toolbar { t.(visible := false) }

  // ---------------------------------------------------------------------
  // SelectionManager
  // ---------------------------------------------------------------------

  datatype Manager = Manager(
    start: Point, end: Point, dragging: bool, selection: Option<Rect>,
    border: Border, toolbar: Toolbar, overlay: Rect, overlayVisible: bool)

  /** What the manager reports through its callbacks. */
  datatype Notice = Quiet | Completed(rect: Rect) | Cancelled | StartRequested | StopRequested

  datatype Outcome = Outcome(m: Manager, notice: Notice)

  const Initial: Manager := Manager(
    Point(0, 0), Point(0, 0), false, None,
    Border(None, Rect(0, 0, 0, 0), false, false, Idle),
    Toolbar(false, Idle, Point(0, 0), false),
    Rect(0, 0, 0, 0), false)

  /** The overlay's invariant: the border frames its rect, and a stored
      selection is even-sized and at least 10 px both ways. */
  predicate Good(m: Manager) {
    Framed(m.border) && (m.selection.Some? ==> ValidSelection(m.selection.value))
  }

  /** `show_for_selection`: forget the old selection and cover all monitors. */
  function ShowForSelection(m: Manager, monitors: seq<Rect>): (m': Manager)
    ensures m'.selection.None? && m'.border.rect.None? && !m'.dragging
    ensures !m'.border.visible && !m'.toolbar.visible && m'.overlayVisible
    ensures forall i :: 0 <= i < |monitors| ==> m'.overlay.Covers(monitors[i])
  {
    m.(selection := None,
       border := HideBorder(m.border.(rect := None)),
       toolbar := HideToolbar(m.toolbar),
       dragging := false,
       overlay := OverlayBox(monitors),
       overlayVisible := true)
  }

  /** `cancel`: stop dragging, hide every window and report the cancel. The
      stored selection is left alone. */
  function Cancel(m: Manager): (o: Outcome)
    ensures o.notice == Cancelled && !o.m.dragging
    ensures !o.m.overlayVisible && !o.m.border.visible && !o.m.toolbar.visible
    ensures o.m.selection == m.selection && o.m.border.rect == m.border.rect
  {
    Outcome(m.(dragging := false, overlayVisible := false,
               border := HideBorder(m.border), toolbar := HideToolbar(m.toolbar)), Cancelled)
  }

  /** `on_button_press` on the overlay: left starts a drag, right cancels. */
  function Press(m: Manager, button: int, p: Point): (o: Outcome)
    ensures button == 1 ==> o.m == m.(start := p, dragging := true) && o.notice == Quiet
    ensures button == 3 ==> !o.m.dragging && o.notice == Cancelled
    ensures button != 1 && button != 3 ==> o == Outcome(m, Quiet)
  {
    if button == 1 then Outcome(m.(start := p, dragging := true), Quiet)
    else if button == 3 then Cancel(m)
    else Outcome(m, Quiet)
  }

  /** `on_motion`: while dragging, the border previews the dragged rectangle. */
  function Move(m: Manager, p: Point): (o: Outcome)
    ensures o.notice == Quiet && o.m.selection == m.selection
    ensures !m.dragging ==> o.m == m
    ensures m.dragging ==>
              && o.m == m.(end := p, border := o.m.border)
              && o.m.border.recording == m.border.recording && o.m.border.drag == m.border.drag
              && var r := Normalize(m.start.x, m.start.y, p.x, p.y);
              && (r.w > 0 && r.h > 0 ==> o.m.border.rect == Some(r) && o.m.border.visible && Framed(o.m.border))
              && (!(r.w > 0 && r.h > 0) ==> o.m.border == m.border)
  {
    if m.dragging then
      Outcome(m.(end := p, border := UpdateRect(m.border, m.start.x, m.start.y, p.x, p.y)), Quiet)
    else Outcome(m, Quiet)
  }

  /** The selection a drag between two corners produces, if it is large enough:
      both raw sides must exceed 10, and are then rounded down to even. */
  function Accept(x1: int, y1: int, x2: int, y2: int): (r: Option<Rect>)
    ensures var raw := Normalize(x1, y1, x2, y2);
            r.Some? <==> raw.w > MinDrag && raw.h > MinDrag
    ensures r.Some? ==> var raw := Normalize(x1, y1, x2, y2);
              r.value.x == raw.x && r.value.y == raw.y
              && IsEven(r.value.w) && raw.w - 1 <= r.value.w <= raw.w
              && IsEven(r.value.h) && raw.h - 1 <= r.value.h <= raw.h
              && ValidSelection(r.value)
  {
    var raw := Normalize(x1, y1, x2, y2);
    if raw.w > MinDrag && raw.h > MinDrag then Some(Rect(raw.x, raw.y, SnapEven(raw.w), SnapEven(raw.h)))
    else None
  }

  /** The accepted selection does not depend on the direction of the drag. */
  lemma AcceptDirectionIndependent(x1: int, y1: int, x2: int, y2: int)
    ensures Accept(x2, y2, x1, y1) == Accept(x1, y1, x2, y2)
    ensures Accept(x1, y2, x2, y1) == Accept(x1, y1, x2, y2)
  {
    NormalizeCornerIndependent(x1, y1, x2, y2);
  }

  /** `on_button_release`: only the release of a left drag does anything. A
      large enough drag becomes the selection, the border snaps to it and the
      toolbar is shown below it; anything smaller is reported as a cancel and
      leaves the selection unset. */
  function Release(m: Manager, button: int, p: Point, toolbarWidth: int): (o: Outcome)
    ensures !(m.dragging && button == 1) ==> o == Outcome(m, Quiet)
    ensures m.dragging && button == 1 ==>
              !o.m.dragging && !o.m.overlayVisible && o.m.end == p
              && match Accept(m.start.x, m.start.y, p.x, p.y)
                 case Some(r) =>
                   o.notice == Completed(r) && o.m.selection == Some(r)
                   && o.m.border.rect == Some(r) && Framed(o.m.border)
                   && o.m.toolbar.visible && o.m.toolbar.position == PositionBelow(r, toolbarWidth)
                 case None =>
                   o.notice == Cancelled && o.m.selection == m.selection && !o.m.border.visible
  {
    if m.dragging && button == 1 then
      var m1 := m.(dragging := false, end := p, overlayVisible := false);
      match Accept(m.start.x, m.start.y, p.x, p.y)
      case Some(r) =>
        Outcome(m1.(selection := Some(r),
                    border := UpdateFromSelection(m1.border, r),
                    toolbar := ShowToolbarBelow(m1.toolbar, r, toolbarWidth)),
                Completed(r))
      case None =>
        Outcome(m1.(border := HideBorder(m1.border)), Cancelled)
    else Outcome(m, Quiet)
  }

  /** `_on_drag`: move the selection, its border and the toolbar by the
      delta, keeping the size. Without a selection nothing moves. */
  function OnDrag(m: Manager, d: Point, toolbarWidth: int): (m': Manager)
    ensures m.selection.None? ==> m' == m
    ensures m.selection.Some? ==> m'.selection == Some(Translate(m.selection.value, d.x, d.y))
    ensures m.selection.Some? && m.border.rect.Some? ==>
              m'.border.rect == Some(Rect(m'.selection.value.x, m'.selection.value.y,
                                          m.border.rect.value.w, m.border.rect.value.h))
    ensures m.selection.Some? ==>
              m'.toolbar.visible && m'.toolbar.position == PositionBelow(m'.selection.value, toolbarWidth)
              && m'.toolbar.recording == m.toolbar.recording && m'.toolbar.drag == m.toolbar.drag
    ensures m'.start == m.start && m'.end == m.end && m'.dragging == m.dragging
    ensures m'.overlay == m.overlay && m'.overlayVisible == m.overlayVisible
    ensures m'.border.visible == m.border.visible && m'.border.recording == m.border.recording
            && m'.border.drag == m.border.drag
    ensures Good(m) ==> Good(m')
  {
    match m.selection
    case None => m
    case Some(r) =>
      var r' := Rect(r.x + d.x, r.y + d.y, r.w, r.h);
      m.(selection := Some(r'),
         border := SetPosition(m.border, r'.x, r'.y),
         toolbar := ShowToolbarBelow(m.toolbar, r', toolbarWidth))
  }

  /** Deltas applied one after another. */
  function DragBy(m: Manager, ds: seq<Point>, toolbarWidth: int): Manager
    decreases |ds|
  {
    if |ds| == 0 then m else DragBy(OnDrag(m, ds[0], toolbarWidth), ds[1..], toolbarWidth)
  }

  /** A run of drag deltas moves the selection by their sum and keeps its size. */
  lemma {:induction false} DragBySum(m: Manager, ds: seq<Point>, toolbarWidth: int)
    requires m.selection.Some?
    ensures DragBy(m, ds, toolbarWidth).selection
            == Some(Translate(m.selection.value, SumX(ds), SumY(ds)))
    decreases |ds|
  {
    if |ds| > 0 {
      DragBySum(OnDrag(m, ds[0], toolbarWidth), ds[1..], toolbarWidth);
    }
  }

  /** Dragging the frame or the toolbar from where it was grabbed to where the
      pointer ends up moves the selection by exactly that displacement. */
  lemma DragFollowsPointer(m: Manager, t: Tracker, path: seq<Point>, toolbarWidth: int)
    requires m.selection.Some? && t.dragging && |path| > 0
    ensures var end := path[|path| - 1];
            DragBy(m, Deltas(t, path), toolbarWidth).selection
            == Some(Translate(m.selection.value, end.x - t.last.x, end.y - t.last.y))
  {
    DeltasTelescope(t, path);
    DragBySum(m, Deltas(t, path), toolbarWidth);
  }

  /** `_on_start_clicked`: the one button starts or finishes a recording. */
  function StartClicked(m: Manager): (o: Outcome)
    ensures o.m == m
    ensures o.notice == (if m.toolbar.recording then StopRequested else StartRequested)
  {
    Outcome(m, if m.toolbar.recording then StopRequested else StartRequested)
  }

  /** `set_recording`: tell the border and the toolbar. */
  function SetRecording(m: Manager, recording: bool): (m': Manager)
    ensures m'.border.recording == recording && m'.toolbar.recording == recording
    ensures m'.selection == m.selection && m'.border.rect == m.border.rect
  {
    m.(border := m.border.(recording := recording), toolbar := m.toolbar.(recording := recording))
  }

  /** Everything the overlay reacts to. */
  datatype Event =
    | Show(monitors: seq<Rect>)
    | OverlayPress(button: int, at: Point)
    | OverlayMotion(at: Point)
    | OverlayRelease(button: int, at: Point, toolbarWidth: int)
    | KeyPress(escape: bool)
    | BorderPress(button: int, at: Point)
    | BorderMotion(at: Point, toolbarWidth: int)
    | BorderRelease
    | ToolbarPress(button: int, at: Point)
    | ToolbarMotion(at: Point, toolbarWidth: int)
    | ToolbarRelease
    | ToolbarStart
    | ToolbarAbort
    | Recording(on: bool)

  /** The manager's reaction to one event: only the overlay's release
      completes a selection; only the overlay's buttons, Escape and the
      toolbar's Cancel cancel; only the toolbar's start button asks to start
      or stop, as the recording look says; and only showing, releasing a
      drag and moving the frame or the toolbar change the selection. */
  function Step(m: Manager, e: Event): (o: Outcome)
    ensures o.notice.Completed? ==> e.OverlayRelease?
    ensures o.notice.Cancelled? ==> e.OverlayPress? || e.OverlayRelease? || e.KeyPress? || e.ToolbarAbort?
    ensures o.notice.StartRequested? || o.notice.StopRequested? <==> e.ToolbarStart?
    ensures e.ToolbarStart? ==> (o.notice.StopRequested? <==> m.toolbar.recording)
    ensures e.ToolbarAbort? || (e.KeyPress? && e.escape) ==> o.notice.Cancelled?
    ensures o.m.selection != m.selection ==> e.Show? || e.OverlayRelease? || e.BorderMotion? || e.ToolbarMotion?
  {
    match e
    case Show(monitors) => Outcome(ShowForSelection(m, monitors), Quiet)
    case OverlayPress(button, p) => Press(m, button, p)
    case OverlayMotion(p) => Move(m, p)
    case OverlayRelease(button, p, tw) => Release(m, button, p, tw)
    case KeyPress(escape) => if escape then Cancel(m) else Outcome(m, Quiet)
    case BorderPress(button, p) =>
      // the frame can be grabbed only while not recording
      Outcome(m.(border := m.border.(drag := TrackPress(m.border.drag, button, p, !m.border.recording))), Quiet)
    case BorderMotion(p, tw) =>
      var mo := TrackMotion(m.border.drag, p);
      var m1 := m.(border := m.border.(drag := mo.tracker));
      Outcome(if mo.delta.Some? then OnDrag(m1, mo.delta.value, tw) else m1, Quiet)
    case BorderRelease =>
      Outcome(m.(border := m.border.(drag := TrackRelease(m.border.drag))), Quiet)
    case ToolbarPress(button, p) =>
      Outcome(m.(toolbar := m.toolbar.(drag := TrackPress(m.toolbar.drag, button, p, true))), Quiet)
    case ToolbarMotion(p, tw) =>
      var mo := TrackMotion(m.toolbar.drag, p);
      var m1 := m.(toolbar := m.toolbar.(drag := mo.tracker));
      Outcome(if mo.delta.Some? then OnDrag(m1, mo.delta.value, tw) else m1, Quiet)
    case ToolbarRelease =>
      Outcome(m.(toolbar := m.toolbar.(drag := TrackRelease(m.toolbar.drag))), Quiet)
    case ToolbarStart => StartClicked(m)
    case ToolbarAbort => Cancel(m)
    case Recording(on) => Outcome(SetRecording(m, on), Quiet)
  }

  /** Every event keeps the overlay's invariant, so every selection reported
      or stored is a valid one and the border always frames its rect. */
  lemma StepKeepsGood(m: Manager, e: Event)
    requires Good(m)
    ensures Good(Step(m, e).m)
    ensures Step(m, e).notice.Completed? ==> ValidSelection(Step(m, e).notice.rect)
  {
  }

  lemma InitialGood()
    ensures Good(Initial)
  {
  }
}

=== FILE: recorder.dfy ===
/**
 * `Recorder`: the output file name, the 1 px inset and even-size rounding of
 * the capture region, the ffmpeg command line, and the process handle kept
 * between `start` and `stop`. The clock, the output directory, the `pactl`
 * answer and whether the process could be spawned are parameters; the
 * process itself is a token holding its command line.
 */
module Recorder {
  import opened Wrappers
  import opened Text
  import opened Decimal
  import opened Geometry
  import Config
  import opened Ffmpeg

  // ---------------------------------------------------------------------
  // Output path
  // ---------------------------------------------------------------------

  /** The wall-clock time `datetime.now()` returned. */
  datatype Stamp = Stamp(year: nat, month: nat, day: nat, hour: nat, minute: nat, second: nat)

  predicate ValidStamp(t: Stamp) {
    1000 <= t.year <= 9999 && 1 <= t.month <= 12 && 1 <= t.day <= 31
    && t.hour < 24 && t.minute < 60 && t.second < 60
  }

  /** `strftime("recording_%Y%m%d_%H%M%S.mp4")` */
  function FileName(t: Stamp): (f: string)
    requires ValidStamp(t)
    ensures |f| == 29 && "recording_" <= f && EndsWith(f, ".mp4")
  {
    PadWidth(t.year, 4); PadWidth(t.month, 2); PadWidth(t.day, 2);
    PadWidth(t.hour, 2); PadWidth(t.minute, 2); PadWidth(t.second, 2);
    var f := "recording_" + ZeroPad(t.year, 4) + ZeroPad(t.month, 2) + ZeroPad(t.day, 2)
             + "_" + ZeroPad(t.hour, 2) + ZeroPad(t.minute, 2) + ZeroPad(t.second, 2) + ".mp4";
    assert f[25..] == ".mp4";
    f
  }

  /** Recover the time from a recording's file name. */
  function ParseFileName(f: string): Option<Stamp> {
    if |f| == 29 && f[..10] == "recording_" && f[18] == '_' && f[25..] == ".mp4"
       && AllDigits(f[10..14]) && AllDigits(f[14..16]) && AllDigits(f[16..18])
       && AllDigits(f[19..21]) && AllDigits(f[21..23]) && AllDigits(f[23..25])
    then
      Some(Stamp(ParseDigits(f[10..14]), ParseDigits(f[14..16]), ParseDigits(f[16..18]),
                 ParseDigits(f[19..21]), ParseDigits(f[21..23]), ParseDigits(f[23..25])))
    else None
  }

  /** The fixed-width fields of a name of the form `head yr mo dy _ hr mi se ext`. */
  lemma NameFields(head: string, yr: string, mo: string, dy: string, sep: string,
                   hr: string, mi: string, se: string, ext: string)
    requires |head| == 10 && |yr| == 4 && |mo| == 2 && |dy| == 2 && |sep| == 1
    requires |hr| == 2 && |mi| == 2 && |se| == 2 && |ext| == 4
    ensures var f := head + yr + mo + dy + sep + hr + mi + se + ext;
            && |f| == 29 && f[..10] == head && f[10..14] == yr && f[14..16] == mo && f[16..18] == dy
            && f[18] == sep[0] && f[19..21] == hr && f[21..23] == mi && f[23..25] == se && f[25..] == ext
  {
  }

  /** The file name records the time it was made at, down to the second. */
  lemma FileNameRoundTrip(t: Stamp)
    requires ValidStamp(t)
    ensures ParseFileName(FileName(t)) == Some(t)
  {
    PadWidth(t.year, 4); PadWidth(t.month, 2); PadWidth(t.day, 2);
    PadWidth(t.hour, 2); PadWidth(t.minute, 2); PadWidth(t.second, 2);
    var yr, mo, dy := ZeroPad(t.year, 4), ZeroPad(t.month, 2), ZeroPad(t.day, 2);
    var hr, mi, se := ZeroPad(t.hour, 2), ZeroPad(t.minute, 2), ZeroPad(t.second, 2);
    NameFields("recording_", yr, mo, dy, "_", hr, mi, se, ".mp4");
  }

  /** Recordings started at different seconds get different files. */
  lemma FileNamesDistinct(s: Stamp, t: Stamp)
    requires ValidStamp(s) && ValidStamp(t) && s != t
    ensures FileName(s) != FileName(t)
  {
    FileNameRoundTrip(s);
    FileNameRoundTrip(t);
  }

  /** `os.path.join(directory, name)`: an absolute name replaces the
      directory; otherwise one `/` separates the two unless the directory is
      empty or already ends with one. */
  function JoinPath(directory: string, name: string): (p: string)
    ensures EndsWith(p, name)
    ensures |name| > 0 && name[0] == '/' ==> p == name
    ensures (|name| == 0 || name[0] != '/') && (directory == "" || EndsWith(directory, "/")) ==>
              p == directory + name
    ensures (|name| == 0 || name[0] != '/') && directory != "" && !EndsWith(directory, "/") ==>
              p == directory + "/" + name
  {
    var p := if |name| > 0 && name[0] == '/' then name
             else if directory == "" || EndsWith(directory, "/") then directory + name
             else directory + "/" + name;
    EndsWithAppend(if |name| > 0 && name[0] == '/' then "" else p[..|p| - |name|], name);
    assert p == (if |name| > 0 && name[0] == '/' then "" else p[..|p| - |name|]) + name;
    p
  }

  /** `os.path.basename`: what follows the last `/`. */
  function BaseName(p: string): string
    decreases |p|
  {
    if |p| == 0 || p[|p| - 1] == '/' then "" else BaseName(p[..|p| - 1]) + [p[|p| - 1]]
  }

  predicate NoSlash(s: string) {
    forall k :: 0 <= k < |s| ==> s[k] != '/'
  }

  /** A slash-free name placed after a `/` (or at the start) is the base name. */
  lemma {:induction false} BaseNameAfter(head: string, name: string)
    requires head == "" || EndsWith(head, "/")
    requires NoSlash(name)
    ensures BaseName(head + name) == name
    decreases |name|
  {
    if |name| == 0 {
      assert head + name == head;
    } else {
      var init := name[..|name| - 1];
      assert (head + name)[..|head + name| - 1] == head + init;
      BaseNameAfter(head, init);
      assert init + [name[|name| - 1]] == name;
    }
  }

  lemma NoSlashAppend(a: string, b: string)
    requires NoSlash(a) && NoSlash(b)
    ensures NoSlash(a + b)
  {
    forall k | 0 <= k < |a + b| ensures (a + b)[k] != '/' {
      if k >= |a| { assert (a + b)[k] == b[k - |a|]; }
    }
  }

  lemma DigitsHaveNoSlash(s: string)
    requires AllDigits(s)
    ensures NoSlash(s)
  {
    forall k | 0 <= k < |s| ensures s[k] != '/' { assert IsDigit(s[k]); }
  }

  /** A recording's file name has no directory part. */
  lemma FileNameHasNoSlash(t: Stamp)
    requires ValidStamp(t)
    ensures NoSlash(FileName(t))
  {
    var yr, mo, dy := ZeroPad(t.year, 4), ZeroPad(t.month, 2), ZeroPad(t.day, 2);
    var hr, mi, se := ZeroPad(t.hour, 2), ZeroPad(t.minute, 2), ZeroPad(t.second, 2);
    DigitsHaveNoSlash(yr); DigitsHaveNoSlash(mo); DigitsHaveNoSlash(dy);
    DigitsHaveNoSlash(hr); DigitsHaveNoSlash(mi); DigitsHaveNoSlash(se);
    var head: string := "recording_";
    var sep: string := "_";
    var ext: string := ".mp4";
    assert NoSlash(head) && NoSlash(sep) && NoSlash(ext);
    NoSlashAppend(head, yr);
    NoSlashAppend(head + yr, mo);
    NoSlashAppend(head + yr + mo, dy);
    NoSlashAppend(head + yr + mo + dy, sep);
    NoSlashAppend(head + yr + mo + dy + sep, hr);
    NoSlashAppend(head + yr + mo + dy + sep + hr, mi);
    NoSlashAppend(head + yr + mo + dy + sep + hr + mi, se);
    NoSlashAppend(head + yr + mo + dy + sep + hr + mi + se, ext);
  }

  /** Where `start` records to: an `.mp4` placed directly inside the output
      directory, separated from it by one `/` unless it already ends with one. */
  function OutputPath(directory: string, t: Stamp): (p: string)
    requires ValidStamp(t)
    ensures EndsWith(p, ".mp4")
    ensures directory != "" && !EndsWith(directory, "/") ==> p == directory + "/" + FileName(t)
    ensures directory == "" || EndsWith(directory, "/") ==> p == directory + FileName(t)
  {
    var name := FileName(t);
    var p := JoinPath(directory, name);
    assert name[0] == 'r' by { assert "recording_"[0] == 'r'; }
    EndsWithTrans(p, name, ".mp4");
    p
  }

  /** The output path splits at its last `/` into the output directory and the
      time-stamped file name: the recording lies directly in that directory. */
  lemma OutputPathSplits(directory: string, t: Stamp)
    requires ValidStamp(t)
    ensures var p := OutputPath(directory, t);
            && BaseName(p) == FileName(t)
            && p[..|p| - |FileName(t)|] == (if directory == "" || EndsWith(directory, "/") then directory else directory + "/")
  {
    var name := FileName(t);
    var head := if directory == "" || EndsWith(directory, "/") then directory else directory + "/";
    if !(directory == "" || EndsWith(directory, "/")) {
      EndsWithAppend(directory, "/");
      assert directory + "/" + name == head + name;
    }
    FileNameHasNoSlash(t);
    BaseNameAfter(head, name);
    assert (head + name)[..|head + name| - |name|] == head;
  }

  // ---------------------------------------------------------------------
  // Capture region
  // ---------------------------------------------------------------------

  /** The region handed to x11grab: 1 px in from each edge of `(x, y, w, h)`,
      sides rounded down to even and never below 2. */
  function CaptureRegion(x: int, y: int, w: int, h: int): (r: Rect)
    ensures r.x == x + 1 && r.y == y + 1
    ensures IsEven(r.w) && r.w >= 2 && IsEven(r.h) && r.h >= 2
    ensures w >= 4 ==> w - 3 <= r.w <= w - 2
    ensures h >= 4 ==> h - 3 <= r.h <= h - 2
    ensures w < 4 ==> r.w == 2
    ensures h < 4 ==> r.h == 2
  {
    Rect(x + 1, y + 1, Max(SnapEven(w - 2), 2), Max(SnapEven(h - 2), 2))
  }

  /** For a selection the overlay produced (even, at least 10) the inset is
      exact: the floor of 2 never applies, and the captured region lies
      strictly inside the selection, clear of the frame drawn around it. */
  lemma SelectionInsetExact(sel: Rect)
    requires ValidSelection(sel)
    ensures CaptureRegion(sel.x, sel.y, sel.w, sel.h) == Rect(sel.x + 1, sel.y + 1, sel.w - 2, sel.h - 2)
    ensures sel.Covers(CaptureRegion(sel.x, sel.y, sel.w, sel.h))
  {
  }

  // ---------------------------------------------------------------------
  // Command line
  // ---------------------------------------------------------------------

  /** `f'{w}x{h}'` */
  function VideoSize(r: Rect): string {
    IntToString(r.w) + "x" + IntToString(r.h)
  }

  /** `f':0.0+{x},{y}'` */
  function GrabInput(r: Rect): string {
    ":0.0+" + IntToString(r.x) + "," + IntToString(r.y)
  }

  /** Splitting `a + [c] + b` at the first `c` when `a` contains none. */
  lemma SplitAtFirst(a: string, c: char, b: string)
    requires c !in a
    ensures var s := a + [c] + b;
            c in s && s[..IndexOf(s, c)] == a && s[IndexOf(s, c) + 1..] == b
  {
    IndexOfAfter(a, c, b);
    var s := a + [c] + b;
    assert s[|a|] == c;
  }

  lemma NumeralHasNo(s: string, c: char)
    requires IsNumeral(s) && c != '-' && !IsDigit(c)
    ensures c !in s
  {
  }

  /** Read `WxH` back. */
  function ParseVideoSize(s: string): Option<(int, int)> {
    if 'x' !in s then None
    else
      var i := IndexOf(s, 'x');
      match (ParseInt(s[..i]), ParseInt(s[i + 1..]))
      case (Some(w), Some(h)) => Some((w, h))
      case _ => None
  }

  /** Read `:0.0+X,Y` back. */
  function ParseGrabInput(s: string): Option<(int, int)> {
    if !(":0.0+" <= s) then None
    else
      var rest := s[5..];
      if ',' !in rest then None
      else
        var i := IndexOf(rest, ',');
        match (ParseInt(rest[..i]), ParseInt(rest[i + 1..]))
        case (Some(x), Some(y)) => Some((x, y))
        case _ => None
  }

  /** The size and position written for the encoder read back as the region. */
  lemma GeometryArgumentsRoundTrip(r: Rect)
    ensures ParseVideoSize(VideoSize(r)) == Some((r.w, r.h))
    ensures ParseGrabInput(GrabInput(r)) == Some((r.x, r.y))
  {
    VideoSizeRoundTrip(r);
    GrabInputRoundTrip(r);
  }

  lemma VideoSizeRoundTrip(r: Rect)
    ensures ParseVideoSize(VideoSize(r)) == Some((r.w, r.h))
  {
    NumeralHasNo(IntToString(r.w), 'x');
    SplitAtFirst(IntToString(r.w), 'x', IntToString(r.h));
    IntToStringRoundTrip(r.w);
    IntToStringRoundTrip(r.h);
  }

  lemma GrabInputRoundTrip(r: Rect)
    ensures ParseGrabInput(GrabInput(r)) == Some((r.x, r.y))
  {
    var g := GrabInput(r);
    assert g[5..] == IntToString(r.x) + "," + IntToString(r.y);
    NumeralHasNo(IntToString(r.x), ',');
    SplitAtFirst(IntToString(r.x), ',', IntToString(r.y));
    IntToStringRoundTrip(r.x);
    IntToStringRoundTrip(r.y);
  }

  /** Python's truth test on the resolved source: `None` and `""` mean no audio. */
  predicate HasAudio(source: Option<string>) {
    source.Some? && source.value != ""
  }

  function VideoInputOptions(framerate: string, region: Rect): seq<Opt> {
    [Opt("-f", "x11grab"), Opt("-thread_queue_size", "1024"), Opt("-probesize", "10M"),
     Opt("-framerate", framerate), Opt("-draw_mouse", "1"), Opt("-video_size", VideoSize(region))]
  }

  const AudioInputOptions: seq<Opt> := [Opt("-f", "pulse"), Opt("-thread_queue_size", "512")]

  function EncodingOptions(crf: int): seq<Opt> {
    [Opt("-c:v", "libx264"), Opt("-preset", "ultrafast"), Opt("-crf", IntToString(crf)),
     Opt("-pix_fmt", "yuv420p"), Opt("-vsync", "cfr")]
  }

  const AudioEncodingOptions: seq<Opt> := [Opt("-c:a", "aac"), Opt("-b:a", "128k")]

  /** The pairs of the command line, in the order `start` appends them. */
  function CommandOptions(framerate: string, crf: int, region: Rect, audio: Option<string>): seq<Opt> {
    VideoInputOptions(framerate, region) + [Opt("-i", GrabInput(region))]
    + (if HasAudio(audio) then AudioInputOptions + [Opt("-i", audio.value)] else [])
    + EncodingOptions(crf)
    + (if HasAudio(audio) then AudioEncodingOptions else [])
  }

  /** The full ffmpeg command line. */
  function Command(framerate: string, crf: int, region: Rect, audio: Option<string>, output: string): seq<string> {
    ["ffmpeg", "-y"] + Flatten(CommandOptions(framerate, crf, region, audio)) + [output]
  }

  /** The list `start` writes first: the x11grab input. */
  function VideoArgs(framerate: string, region: Rect): seq<string> {
    ["-f", "x11grab", "-thread_queue_size", "1024", "-probesize", "10M",
     "-framerate", framerate, "-draw_mouse", "1", "-video_size", VideoSize(region),
     "-i", GrabInput(region)]
  }

  /** The list added for a PulseAudio source. */
  function AudioArgs(source: string): seq<string> {
    ["-f", "pulse", "-thread_queue_size", "512", "-i", source]
  }

  /** The list of video encoding options. */
  function EncodeArgs(crf: int): seq<string> {
    ["-c:v", "libx264", "-preset", "ultrafast", "-crf", IntToString(crf), "-pix_fmt", "yuv420p", "-vsync", "cfr"]
  }

  const AudioEncodeArgs: seq<string> := ["-c:a", "aac", "-b:a", "128k"]

  /** Flattening seven pairs, written out. */
  lemma FlattenSeven(opts: seq<Opt>)
    requires |opts| == 7
    ensures Flatten(opts) == [opts[0].flag, opts[0].value, opts[1].flag, opts[1].value, opts[2].flag, opts[2].value,
                              opts[3].flag, opts[3].value, opts[4].flag, opts[4].value, opts[5].flag, opts[5].value,
                              opts[6].flag, opts[6].value]
  {
    var f := Flatten(opts);
    assert f[0] == opts[0].flag && f[1] == opts[0].value;
    assert f[2] == opts[1].flag && f[3] == opts[1].value;
    assert f[2 * 2] == opts[2].flag && f[2 * 2 + 1] == opts[2].value;
    assert f[2 * 3] == opts[3].flag && f[2 * 3 + 1] == opts[3].value;
    assert f[2 * 4] == opts[4].flag && f[2 * 4 + 1] == opts[4].value;
    assert f[2 * 5] == opts[5].flag && f[2 * 5 + 1] == opts[5].value;
    assert f[2 * 6] == opts[6].flag && f[2 * 6 + 1] == opts[6].value;
  }

  lemma FlattenVideo(framerate: string, region: Rect)
    ensures Flatten(VideoInputOptions(framerate, region) + [Opt("-i", GrabInput(region))]) == VideoArgs(framerate, region)
  {
    var opts := VideoInputOptions(framerate, region) + [Opt("-i", GrabInput(region))];
    assert opts == [Opt("-f", "x11grab"), Opt("-thread_queue_size", "1024"), Opt("-probesize", "10M"),
     Opt("-framerate", framerate), Opt("-draw_mouse", "1"), Opt("-video_size", VideoSize(region)), Opt("-i", GrabInput(region))];
    FlattenSeven(opts);
  }

  lemma FlattenAudio(source: string)
    ensures Flatten(AudioInputOptions + [Opt("-i", source)]) == AudioArgs(source)
  {
    var opts := AudioInputOptions + [Opt("-i", source)];
    var f := Flatten(opts);
    forall k | 0 <= k < 6
      ensures f[k] == AudioArgs(source)[k]
    {
      var i := k / 2;
      assert f[2 * i] == opts[i].flag && f[2 * i + 1] == opts[i].value;
      assert i == 0 || i == 1 || i == 2;
    }
  }

  /** Flattening five pairs, written out. */
  lemma FlattenFive(opts: seq<Opt>)
    requires |opts| == 5
    ensures Flatten(opts) == [opts[0].flag, opts[0].value, opts[1].flag, opts[1].value, opts[2].flag, opts[2].value,
                              opts[3].flag, opts[3].value, opts[4].flag, opts[4].value]
  {
    var f := Flatten(opts);
    assert f[0] == opts[0].flag && f[1] == opts[0].value;
    assert f[2] == opts[1].flag && f[3] == opts[1].value;
    assert f[2 * 2] == opts[2].flag && f[2 * 2 + 1] == opts[2].value;
    assert f[2 * 3] == opts[3].flag && f[2 * 3 + 1] == opts[3].value;
    assert f[2 * 4] == opts[4].flag && f[2 * 4 + 1] == opts[4].value;
  }

  lemma FlattenEncode(crf: int)
    ensures Flatten(EncodingOptions(crf)) == EncodeArgs(crf)
    ensures Flatten(AudioEncodingOptions) == AudioEncodeArgs
  {
    FlattenFive(EncodingOptions(crf));
    var g := Flatten(AudioEncodingOptions);
    assert g[0] == "-c:a" && g[1] == "aac" && g[2] == "-b:a" && g[3] == "128k";
  }


  lemma Regroup<T>(x: seq<T>, a: seq<T>, b: seq<T>, c: seq<T>, d: seq<T>, y: seq<T>)
    ensures x + (a + b + c + d) + y == x + a + b + c + d + y
  {
  }

  /** The pairs spell out exactly the list `start` builds: `ffmpeg -y`, the
      x11grab input, the PulseAudio input only when there is a source, the
      video encoding options, AAC only when there is a source, and the
      output path last. */
  lemma CommandAsWritten(framerate: string, crf: int, region: Rect, audio: Option<string>, output: string)
    ensures Command(framerate, crf, region, audio, output)
            == ["ffmpeg", "-y"] + VideoArgs(framerate, region)
               + (if HasAudio(audio) then AudioArgs(audio.value) else [])
               + EncodeArgs(crf)
               + (if HasAudio(audio) then AudioEncodeArgs else [])
               + [output]
  {
    var video := VideoInputOptions(framerate, region) + [Opt("-i", GrabInput(region))];
    var au := if HasAudio(audio) then AudioInputOptions + [Opt("-i", audio.value)] else [];
    var ae := if HasAudio(audio) then AudioEncodingOptions else [];
    assert CommandOptions(framerate, crf, region, audio) == video + au + EncodingOptions(crf) + ae;
    FlattenAppend(video + au + EncodingOptions(crf), ae);
    FlattenAppend(video + au, EncodingOptions(crf));
    FlattenAppend(video, au);
    FlattenVideo(framerate, region);
    FlattenEncode(crf);
    var audioArgs := if HasAudio(audio) then AudioArgs(audio.value) else [];
    var audioEncode := if HasAudio(audio) then AudioEncodeArgs else [];
    if HasAudio(audio) {
      FlattenAudio(audio.value);
    }
    assert Flatten(au) == audioArgs && Flatten(ae) == audioEncode;
    var flat := Flatten(CommandOptions(framerate, crf, region, audio));
    assert flat == VideoArgs(framerate, region) + audioArgs + EncodeArgs(crf) + audioEncode;
    assert Command(framerate, crf, region, audio, output) == ["ffmpeg", "-y"] + flat + [output];
    Regroup(["ffmpeg", "-y"], VideoArgs(framerate, region), audioArgs, EncodeArgs(crf), audioEncode, [output]);
  }

  /** The command line has 27 words, or 37 with audio, starts
      `ffmpeg -y -f x11grab` and ends with the output path. */
  lemma CommandShape(framerate: string, crf: int, region: Rect, audio: Option<string>, output: string)
    ensures var argv := Command(framerate, crf, region, audio, output);
            && |argv| == (if HasAudio(audio) then 37 else 27)
            && argv[..4] == ["ffmpeg", "-y", "-f", "x11grab"]
            && argv[|argv| - 1] == output
  {
    CommandAsWritten(framerate, crf, region, audio, output);
    var argv := Command(framerate, crf, region, audio, output);
    assert argv[0] == "ffmpeg" && argv[1] == "-y" && argv[2] == "-f" && argv[3] == "x11grab";
  }

  /** The inputs ffmpeg sees: the x11grab display, then the PulseAudio source
      when there is audio. */
  function InputsFor(framerate: string, region: Rect, audio: Option<string>): seq<Input> {
    [Input(VideoInputOptions(framerate, region), GrabInput(region))]
    + (if HasAudio(audio) then [Input(AudioInputOptions, audio.value)] else [])
  }

  /** The options ffmpeg applies to the output file. */
  function OutputOptionsFor(crf: int, audio: Option<string>): seq<Opt> {
    EncodingOptions(crf) + (if HasAudio(audio) then AudioEncodingOptions else [])
  }

  /** The command line parses as `ffmpeg -y <pairs> <output>`. */
  lemma CommandParses(framerate: string, crf: int, region: Rect, audio: Option<string>, output: string)
    ensures Parse(Command(framerate, crf, region, audio, output))
            == Some(Invocation("ffmpeg", true, CommandOptions(framerate, crf, region, audio), output))
  {
    var inv := Invocation("ffmpeg", true, CommandOptions(framerate, crf, region, audio), output);
    assert Render(inv) == Command(framerate, crf, region, audio, output);
    ParseRender(inv);
  }

  /** None of the option lists `start` writes holds an `-i` of its own. */
  lemma OptionListsLackInput(framerate: string, region: Rect, crf: int, audio: Option<string>)
    ensures NoInputFlag(VideoInputOptions(framerate, region))
    ensures NoInputFlag(AudioInputOptions)
    ensures NoInputFlag(OutputOptionsFor(crf, audio))
  {
    var video := VideoInputOptions(framerate, region);
    assert forall i :: 0 <= i < |video| ==> |video[i].flag| != 2 || video[i].flag[1] != 'i';
    assert forall i :: 0 <= i < |AudioInputOptions| ==> |AudioInputOptions[i].flag| != 2 || AudioInputOptions[i].flag[1] != 'i';
    var enc := EncodingOptions(crf);
    assert forall i :: 0 <= i < |enc| ==> |enc[i].flag| != 2;
    assert forall i :: 0 <= i < |AudioEncodingOptions| ==> |AudioEncodingOptions[i].flag| != 2;
    NoInputAppend(enc, if HasAudio(audio) then AudioEncodingOptions else []);
  }

  /** The pairs group into the inputs and output options above. */
  lemma CommandLayout(framerate: string, crf: int, region: Rect, audio: Option<string>)
    ensures Layout(CommandOptions(framerate, crf, region, audio))
            == Plan(InputsFor(framerate, region, audio), OutputOptionsFor(crf, audio))
  {
    var opts := CommandOptions(framerate, crf, region, audio);
    var video := VideoInputOptions(framerate, region);
    var out := OutputOptionsFor(crf, audio);
    OptionListsLackInput(framerate, region, crf, audio);
    GroupOutput(out);
    if HasAudio(audio) {
      var tail := AudioInputOptions + [Opt("-i", audio.value)] + out;
      assert opts == video + [Opt("-i", GrabInput(region))] + tail;
      GroupInput(video, GrabInput(region), tail);
      GroupInput(AudioInputOptions, audio.value, out);
    } else {
      assert opts == video + [Opt("-i", GrabInput(region))] + out;
      GroupInput(video, GrabInput(region), out);
    }
  }

  /** The x11grab input is read with the frame rate and the region's size. */
  lemma VideoInputSettings(framerate: string, region: Rect)
    ensures var opts := VideoInputOptions(framerate, region);
            && Sets(opts, "-f", "x11grab")
            && Sets(opts, "-video_size", VideoSize(region))
            && Sets(opts, "-framerate", framerate)
  {
    var opts := VideoInputOptions(framerate, region);
    assert forall i :: 0 <= i < |opts| ==>
             (opts[i].flag == "-f" ==> i == 0) && (opts[i].flag == "-framerate" ==> i == 3)
             && (opts[i].flag == "-video_size" ==> i == 5);
  }

  /** The video encoding options set the codec, the CRF and the pixel
      format, and say nothing about audio. */
  lemma EncodingSettings(crf: int)
    ensures var enc := EncodingOptions(crf);
            && Sets(enc, "-c:v", "libx264") && Sets(enc, "-crf", IntToString(crf)) && Sets(enc, "-pix_fmt", "yuv420p")
            && Lacks(enc, "-c:a") && Lacks(enc, "-b:a")
  {
    var enc := EncodingOptions(crf);
    assert forall i :: 0 <= i < |enc| ==>
             (enc[i].flag == "-c:v" ==> i == 0) && (enc[i].flag == "-crf" ==> i == 2)
             && (enc[i].flag == "-pix_fmt" ==> i == 3) && enc[i].flag != "-c:a" && enc[i].flag != "-b:a";
  }

  /** The audio encoding options set AAC at 128k and nothing about video. */
  lemma AudioEncodingSettings()
    ensures var ae := AudioEncodingOptions;
            && Sets(ae, "-c:a", "aac") && Sets(ae, "-b:a", "128k")
            && Lacks(ae, "-c:v") && Lacks(ae, "-crf") && Lacks(ae, "-pix_fmt")
  {
    var ae := AudioEncodingOptions;
    assert forall i :: 0 <= i < |ae| ==>
             (ae[i].flag == "-c:a" ==> i == 0) && (ae[i].flag == "-b:a" ==> i == 1)
             && ae[i].flag != "-c:v" && ae[i].flag != "-crf" && ae[i].flag != "-pix_fmt";
  }

  /** The output is libx264 at the CRF in yuv420p, with AAC at 128k exactly
      when there is audio. */
  lemma OutputSettings(crf: int, audio: Option<string>)
    ensures var outs := OutputOptionsFor(crf, audio);
            && Sets(outs, "-c:v", "libx264")
            && Sets(outs, "-crf", IntToString(crf))
            && Sets(outs, "-pix_fmt", "yuv420p")
            && (HasAudio(audio) ==> Sets(outs, "-c:a", "aac") && Sets(outs, "-b:a", "128k"))
            && (!HasAudio(audio) ==> Lacks(outs, "-c:a") && Lacks(outs, "-b:a"))
  {
    var enc := EncodingOptions(crf);
    EncodingSettings(crf);
    if HasAudio(audio) {
      var ae := AudioEncodingOptions;
      AudioEncodingSettings();
      SetsAppend(enc, ae, "-c:v", "libx264");
      SetsAppend(enc, ae, "-crf", IntToString(crf));
      SetsAppend(enc, ae, "-pix_fmt", "yuv420p");
      SetsAppend(enc, ae, "-c:a", "aac");
      SetsAppend(enc, ae, "-b:a", "128k");
    } else {
      assert OutputOptionsFor(crf, audio) == enc;
    }
  }

  /** How ffmpeg reads the command line: `-y`, then the x11grab input with the
      requested size and frame rate, then (only with audio) a PulseAudio input
      from the source, and output options setting libx264 at the CRF with
      yuv420p, plus AAC at 128k exactly when there is audio. */
  lemma CommandReading(framerate: string, crf: int, region: Rect, audio: Option<string>, output: string)
    ensures var inv := Parse(Command(framerate, crf, region, audio, output));
            && inv.Some? && inv.value.program == "ffmpeg" && inv.value.overwrite && inv.value.output == output
            && var plan := Layout(inv.value.options);
            && |plan.inputs| == (if HasAudio(audio) then 2 else 1)
            && Sets(plan.inputs[0].options, "-f", "x11grab")
            && Sets(plan.inputs[0].options, "-video_size", VideoSize(region))
            && Sets(plan.inputs[0].options, "-framerate", framerate)
            && plan.inputs[0].url == GrabInput(region)
            && Sets(plan.outputOptions, "-c:v", "libx264")
            && Sets(plan.outputOptions, "-crf", IntToString(crf))
            && Sets(plan.outputOptions, "-pix_fmt", "yuv420p")
            && (HasAudio(audio) ==>
                  Sets(plan.inputs[1].options, "-f", "pulse") && plan.inputs[1].url == audio.value
                  && Sets(plan.outputOptions, "-c:a", "aac") && Sets(plan.outputOptions, "-b:a", "128k"))
            && (!HasAudio(audio) ==> Lacks(plan.outputOptions, "-c:a") && Lacks(plan.outputOptions, "-b:a"))
  {
    CommandParses(framerate, crf, region, audio, output);
    CommandLayout(framerate, crf, region, audio);
    VideoInputSettings(framerate, region);
    OutputSettings(crf, audio);
    AudioInputSettings();
    var inputs := InputsFor(framerate, region, audio);
    assert inputs[0] == Input(VideoInputOptions(framerate, region), GrabInput(region));
    assert HasAudio(audio) ==> inputs[1] == Input(AudioInputOptions, audio.value);
  }

  /** The PulseAudio input is read with the pulse demuxer. */
  lemma AudioInputSettings()
    ensures Sets(AudioInputOptions, "-f", "pulse")
  {
    assert AudioInputOptions[0].flag == "-f";
  }

  /** A running encoder, known by the command line it was started with. */
  datatype Process = Process(argv: seq<string>)

  datatype Recorder = Recorder(process: Option<Process>, outputPath: Option<string>)

  const Fresh: Recorder := Recorder(None, None)

  /** `is_recording` */
  predicate IsRecording(r: Recorder) { r.process.Some? }

  /** The outside world at `start`: the expanded output directory, the clock,
      the stdout of `pactl get-default-sink` (`None` if it failed) and whether
      the process could be spawned. */
  datatype Launch = Launch(outputDir: string, stamp: Stamp, defaultSink: Option<string>, spawned: bool)

  /** What `start` reads without failing: a clock inside the years `%Y`
      writes as four digits, and the frame-rate and audio settings, which
      loading always supplies. */
  predicate CanStart(c: Config.Settings, l: Launch) {
    ValidStamp(l.stamp) && "framerate" in c && "audio_source" in c
  }

  /** The resolved source as it reaches the command line: `if audio_source:`
      adds it only when it passes the truth test, and only a string can be
      an argument. */
  function AudioArgument(source: Config.Value): (a: Option<string>)
    ensures HasAudio(a) <==> source.Str? && Config.Truthy(source)
    ensures HasAudio(a) ==> a == Some(source.s)
  {
    if source.Str? then Some(source.s) else None
  }

  /** A truthy source that is not a string (a stored number or `true`) is put
      into the argument list, where `Popen` rejects it. */
  predicate ArgvIsText(source: Config.Value) {
    source.Str? || !Config.Truthy(source)
  }

  /** The encoder really starts: `start` gets that far, the argument list is
      all text, and the process could be spawned. */
  predicate Spawns(c: Config.Settings, l: Launch) {
    CanStart(c, l) && l.spawned && ArgvIsText(Config.ResolvedAudioSource(c, l.defaultSink))
  }

  /** The command line `start` builds for these settings and this selection. */
  function StartCommand(c: Config.Settings, l: Launch, x: int, y: int, w: int, h: int): seq<string>
    requires CanStart(c, l)
  {
    Command(Config.PyStr(c["framerate"]), Config.VideoQuality(c), CaptureRegion(x, y, w, h),
            AudioArgument(Config.ResolvedAudioSource(c, l.defaultSink)), OutputPath(l.outputDir, l.stamp))
  }

  /** `start`: the output path is set first; the process handle is replaced
      only if the encoder could be spawned, and it then writes to that path. */
  function Start(r: Recorder, c: Config.Settings, l: Launch, x: int, y: int, w: int, h: int): (r': Recorder)
    requires CanStart(c, l)
    ensures r'.outputPath == Some(OutputPath(l.outputDir, l.stamp))
    ensures EndsWith(r'.outputPath.value, ".mp4")
    ensures Spawns(c, l) ==> IsRecording(r')
    ensures Spawns(c, l) ==> var argv := r'.process.value.argv;
              |argv| >= 27 && argv[|argv| - 1] == r'.outputPath.value
              && argv[..4] == ["ffmpeg", "-y", "-f", "x11grab"]
    ensures !Spawns(c, l) ==> r'.process == r.process
  {
    var argv := StartCommand(c, l, x, y, w, h);
    CommandShape(Config.PyStr(c["framerate"]), Config.VideoQuality(c), CaptureRegion(x, y, w, h),
                 AudioArgument(Config.ResolvedAudioSource(c, l.defaultSink)), OutputPath(l.outputDir, l.stamp));
    Recorder(if Spawns(c, l) then Some(Process(argv)) else r.process, Some(OutputPath(l.outputDir, l.stamp)))
  }

  /** What `stop` returns: the recorder afterwards and the stored path. */
  datatype Stopped = Stopped(recorder: Recorder, path: Option<string>)

  /** `stop`: interrupt and forget the process (the signal, the 5 s wait and
      the kill are outside the model); the stored path is returned either way. */
  function Stop(r: Recorder): (s: Stopped)
    ensures !IsRecording(s.recorder)
    ensures s.path == r.outputPath && s.recorder.outputPath == r.outputPath
    ensures !IsRecording(r) ==> s.recorder == r
  {
    Stopped(r.(process := None), r.outputPath)
  }

  /** A spawned recording, once stopped, hands back the `.mp4` it wrote. */
  lemma StartThenStop(r: Recorder, c: Config.Settings, l: Launch, x: int, y: int, w: int, h: int)
    requires Spawns(c, l)
    ensures var started := Start(r, c, l, x, y, w, h);
            IsRecording(started)
            && Stop(started).path == Some(OutputPath(l.outputDir, l.stamp))
            && !IsRecording(Stop(started).recorder)
  {
  }

  /** `argv`, as `ffmpeg` reads it, records the selection `sel` for these
      settings: an x11grab input captures exactly the selection shrunk by one
      pixel on each side at the configured frame rate, a PulseAudio input
      reads the resolved source exactly when that is a non-empty string, the
      encoder runs at the configured CRF, and it writes to the output path. */
  ghost predicate RecordsSelection(c: Config.Settings, l: Launch, sel: Rect, argv: seq<string>)
    requires CanStart(c, l)
  {
    var inv := Parse(argv);
    var src := Config.ResolvedAudioSource(c, l.defaultSink);
    && inv.Some? && inv.value.output == OutputPath(l.outputDir, l.stamp)
    && var plan := Layout(inv.value.options);
    && |plan.inputs| == (if src.Str? && Config.Truthy(src) then 2 else 1)
    && Sets(plan.inputs[0].options, "-f", "x11grab")
    && Sets(plan.inputs[0].options, "-video_size", VideoSize(Rect(sel.x + 1, sel.y + 1, sel.w - 2, sel.h - 2)))
    && Sets(plan.inputs[0].options, "-framerate", Config.PyStr(c["framerate"]))
    && plan.inputs[0].url == GrabInput(Rect(sel.x + 1, sel.y + 1, sel.w - 2, sel.h - 2))
    && (|plan.inputs| == 2 ==> Sets(plan.inputs[1].options, "-f", "pulse") && plan.inputs[1].url == src.s)
    && Sets(plan.outputOptions, "-crf", IntToString(Config.VideoQuality(c)))
  }

  /** What the encoder is asked to do for these settings: capture exactly
      the inset region at the configured frame rate, encode at the
      configured CRF, and take audio from the resolved source exactly when it
      is a non-empty string. */
  lemma StartedEncoder(c: Config.Settings, l: Launch, sel: Rect)
    requires CanStart(c, l) && ValidSelection(sel)
    ensures RecordsSelection(c, l, sel, StartCommand(c, l, sel.x, sel.y, sel.w, sel.h))
    ensures var inv := Parse(StartCommand(c, l, sel.x, sel.y, sel.w, sel.h));
            var src := Config.ResolvedAudioSource(c, l.defaultSink);
            && inv.Some? && inv.value.output == OutputPath(l.outputDir, l.stamp)
            && var plan := Layout(inv.value.options);
            && |plan.inputs| == (if src.Str? && Config.Truthy(src) then 2 else 1)
            && Sets(plan.inputs[0].options, "-f", "x11grab")
            && Sets(plan.inputs[0].options, "-video_size", VideoSize(Rect(sel.x + 1, sel.y + 1, sel.w - 2, sel.h - 2)))
            && Sets(plan.inputs[0].options, "-framerate", Config.PyStr(c["framerate"]))
            && plan.inputs[0].url == GrabInput(Rect(sel.x + 1, sel.y + 1, sel.w - 2, sel.h - 2))
            && (|plan.inputs| == 2 ==> Sets(plan.inputs[1].options, "-f", "pulse") && plan.inputs[1].url == src.s)
            && Sets(plan.outputOptions, "-crf", IntToString(Config.VideoQuality(c)))
  {
    var framerate, crf := Config.PyStr(c["framerate"]), Config.VideoQuality(c);
    var region := CaptureRegion(sel.x, sel.y, sel.w, sel.h);
    var src := Config.ResolvedAudioSource(c, l.defaultSink);
    var audio := AudioArgument(src);
    var output := OutputPath(l.outputDir, l.stamp);
    assert StartCommand(c, l, sel.x, sel.y, sel.w, sel.h) == Command(framerate, crf, region, audio, output);
    SelectionInsetExact(sel);
    assert region == Rect(sel.x + 1, sel.y + 1, sel.w - 2, sel.h - 2);
    CommandReading(framerate, crf, region, audio, output);
  }

  /** The worked example: a selection at (100, 100) of 800 x 600 is captured
      from `:0.0+101,101` at `798x598`. */
  lemma Example800x600()
    ensures CaptureRegion(100, 100, 800, 600) == Rect(101, 101, 798, 598)
    ensures VideoSize(Rect(101, 101, 798, 598)) == "798x598"
    ensures GrabInput(Rect(101, 101, 798, 598)) == ":0.0+101,101"
  {
  }
}

=== FILE: settingswindow.dfy ===
/**
 * The settings window's own logic: turning the keys pressed while
 * "Listen..." is active into a hotkey string in the `<ctrl>+<shift>+r`
 * format of the global-hotkey library, and writing the form back to the
 * settings on Save while noting whether the hotkey changed. The widgets
 * are outside the model; their contents are the parameters.
 */
module SettingsWindow {
  import opened Wrappers
  import opened Text
  import Config

  // ---------------------------------------------------------------------
  // Hotkey capture
  // ---------------------------------------------------------------------

  /** A key as the keyboard library reports it: a named special key
      (`ctrl_l`, `shift`, `f5`, `space`, ...) or a key code carrying the
      character it types (`""` when it carries none). */
  datatype Key = Special(name: string) | Code(ch: string)

  /** The four modifier tokens of the hotkey format. */
  const Modifiers: set<string> := {"<cmd>", "<ctrl>", "<alt>", "<shift>"}

  /** The names of pynput's modifier keys, each with its left and right variant. */
  const ModifierNames: set<string> := {"cmd", "cmd_l", "cmd_r", "ctrl", "ctrl_l", "ctrl_r",
                                       "alt", "alt_l", "alt_r", "shift", "shift_l", "shift_r"}

  /** The token a modifier contributes: the plain, left and right variants
      of a modifier all give the same token; any other key gives none. */
  function ModifierToken(k: Key): (t: Option<string>)
    ensures t.Some? <==> k.Special? && k.name in ModifierNames
    ensures t.Some? ==> t.value in Modifiers
    ensures k.Special? && k.name in {"cmd", "cmd_l", "cmd_r"} ==> t == Some("<cmd>")
    ensures k.Special? && k.name in {"ctrl", "ctrl_l", "ctrl_r"} ==> t == Some("<ctrl>")
    ensures k.Special? && k.name in {"alt", "alt_l", "alt_r"} ==> t == Some("<alt>")
    ensures k.Special? && k.name in {"shift", "shift_l", "shift_r"} ==> t == Some("<shift>")
  {
    match k
    case Code(_) => None
    case Special(name) =>
      if name in {"cmd", "cmd_l", "cmd_r"} then Some("<cmd>")
      else if name in {"ctrl", "ctrl_l", "ctrl_r"} then Some("<ctrl>")
      else if name in {"alt", "alt_l", "alt_r"} then Some("<alt>")
      else if name in {"shift", "shift_l", "shift_r"} then Some("<shift>")
      else None
  }

  /** What a key that is not a modifier makes the main key: a typed
      character, lower-cased, or else the special key's name. A key code
      without a character changes nothing. */
  function Candidate(k: Key): (c: Option<string>)
    ensures k.Code? ==> (c.Some? <==> k.ch != "")
    ensures k.Code? && c.Some? ==> |c.value| == |k.ch| && forall i :: 0 <= i < |k.ch| ==> c.value[i] == ToLowerChar(k.ch[i])
    ensures k.Special? ==> c == Some(k.name)
  {
    match k
    case Code(ch) => if ch != "" then Some(Lower(ch)) else None
    case Special(name) => Some(name)
  }

  /** `k` sets the main key when it is met. */
  predicate Chooses(k: Key) {
    ModifierToken(k).None? && Candidate(k).Some?
  }

  /** The state of the capture loop: the tokens collected so far and the
      main key (`None` until a key sets it). */
  datatype Scan = Scan(parts: seq<string>, main: Option<string>)

  /** The loop over the captured keys, in the order the key set yields
      them: each modifier appends its token, and every other key that
      carries a character or a name replaces the main key, so the last such
      key wins. */
  function ScanKeys(keys: seq<Key>): (s: Scan)
    ensures forall i :: 0 <= i < |s.parts| ==> s.parts[i] in Modifiers
    ensures s.main.None? <==> forall i :: 0 <= i < |keys| ==> !Chooses(keys[i])
    ensures s.main.Some? ==> exists i :: 0 <= i < |keys| && Chooses(keys[i]) && s.main == Candidate(keys[i])
                                         && forall j :: i < j < |keys| ==> !Chooses(keys[j])
    decreases |keys|
  {
    if |keys| == 0 then Scan([], None)
    else
      var init := keys[..|keys| - 1];
      var s := ScanKeys(init);
      ScanStepKeeps(init, keys[|keys| - 1], s);
      assert init + [keys[|keys| - 1]] == keys;
      ScanStep(s, keys[|keys| - 1])
  }

  /** One turn of the capture loop. */
  function ScanStep(s: Scan, k: Key): Scan {
    match ModifierToken(k)
    case Some(t) => Scan(s.parts + [t], s.main)
    case None => if Candidate(k).Some? then Scan(s.parts, Candidate(k)) else s
  }

  /** What the scan of `keys` knows: its tokens are modifiers, and its main
      key is the candidate of the last choosing key, if any. */
  predicate Scanned(keys: seq<Key>, s: Scan) {
    && (forall i :: 0 <= i < |s.parts| ==> s.parts[i] in Modifiers)
    && (s.main.None? <==> forall i :: 0 <= i < |keys| ==> !Chooses(keys[i]))
    && (s.main.Some? ==> exists i :: 0 <= i < |keys| && Chooses(keys[i]) && s.main == Candidate(keys[i])
                                     && forall j :: i < j < |keys| ==> !Chooses(keys[j]))
  }

  lemma ScanStepKeeps(init: seq<Key>, k: Key, s: Scan)
    requires Scanned(init, s)
    ensures Scanned(init + [k], ScanStep(s, k))
  {
    var keys := init + [k];
    assert forall i :: 0 <= i < |init| ==> keys[i] == init[i];
    assert keys[|init|] == k;
    if ModifierToken(k).Some? {
      assert !Chooses(k);
    } else if Candidate(k).Some? {
      assert Chooses(keys[|init|]);
    } else {
      assert !Chooses(k);
    }
  }

  /** The modifier tokens of `keys`, in order (a reference definition read
      from the front). */
  function ModifierTokens(keys: seq<Key>): seq<string>
    decreases |keys|
  {
    if |keys| == 0 then []
    else
      (match ModifierToken(keys[0]) case Some(t) => [t] case None => [])
      + ModifierTokens(keys[1..])
  }

  lemma {:induction false} ModifierTokensAppend(keys: seq<Key>, k: Key)
    ensures ModifierTokens(keys + [k])
            == ModifierTokens(keys) + (match ModifierToken(k) case Some(t) => [t] case None => [])
    decreases |keys|
  {
    if |keys| == 0 {
      assert [] + [k] == [k];
      assert [k][1..] == [];
    } else {
      assert (keys + [k])[0] == keys[0];
      assert (keys + [k])[1..] == keys[1..] + [k];
      ModifierTokensAppend(keys[1..], k);
    }
  }

  /** The collected tokens are exactly the modifiers' tokens, in the order
      the keys were met. */
  lemma {:induction false} ScanParts(keys: seq<Key>)
    ensures ScanKeys(keys).parts == ModifierTokens(keys)
    decreases |keys|
  {
    if |keys| > 0 {
      var init := keys[..|keys| - 1];
      ScanParts(init);
      assert init + [keys[|keys| - 1]] == keys;
      ModifierTokensAppend(init, keys[|keys| - 1]);
    }
  }

  /** The tokens of the hotkey string: the modifiers, then the main key
      when it is a non-empty string. */
  function HotkeyTokens(keys: seq<Key>): (tokens: seq<string>)
    ensures var s := ScanKeys(keys);
            |tokens| == |s.parts| + (if s.main.Some? && s.main.value != "" then 1 else 0)
  {
    var s := ScanKeys(keys);
    s.parts + (if s.main.Some? && s.main.value != "" then [s.main.value] else [])
  }

  /** No token contains the separator `+`. */
  predicate NoPlus(tokens: seq<string>) {
    forall i :: 0 <= i < |tokens| ==> '+' !in tokens[i]
  }

  /** `_finish_capture`: the text of the hotkey entry afterwards. With no
      captured key, or nothing that yields a token, the entry is left as it
      was; otherwise it shows the tokens joined by `+`, which split back
      into the tokens when none of them is `+` itself. */
  function FinishCapture(entry: string, keys: seq<Key>): (r: string)
    ensures |keys| == 0 || |HotkeyTokens(keys)| == 0 ==> r == entry
    ensures |HotkeyTokens(keys)| > 0 && NoPlus(HotkeyTokens(keys)) ==> Split(r, '+') == HotkeyTokens(keys)
  {
    var tokens := HotkeyTokens(keys);
    if |keys| == 0 || |tokens| == 0 then entry
    else
      if NoPlus(tokens) then
        SplitJoin(tokens, '+');
        Join(tokens, '+')
      else Join(tokens, '+')
  }

  lemma ModifiersNoPlus()
    ensures forall m :: m in Modifiers ==> '+' !in m
  {
    assert "<cmd>" == ['<', 'c', 'm', 'd', '>'];
    assert "<ctrl>" == ['<', 'c', 't', 'r', 'l', '>'];
    assert "<alt>" == ['<', 'a', 'l', 't', '>'];
    assert "<shift>" == ['<', 's', 'h', 'i', 'f', 't', '>'];
  }

  /** The tokens never contain `+` unless the main key does. */
  lemma TokensNoPlus(keys: seq<Key>)
    requires var s := ScanKeys(keys); s.main.Some? ==> '+' !in s.main.value
    ensures NoPlus(HotkeyTokens(keys))
  {
    var s := ScanKeys(keys);
    var tokens := HotkeyTokens(keys);
    ModifiersNoPlus();
    forall i | 0 <= i < |tokens|
      ensures '+' !in tokens[i]
    {
      if i < |s.parts| {
        assert tokens[i] == s.parts[i];
      } else {
        assert tokens[i] == s.main.value;
      }
    }
  }

  /** The hotkey string read back: the modifiers' tokens in capture order,
      then the main key as the final token; a captured key set without a
      modifier or main key leaves the entry alone. */
  lemma HotkeyString(entry: string, keys: seq<Key>)
    requires var s := ScanKeys(keys); s.main.Some? ==> '+' !in s.main.value
    ensures var s := ScanKeys(keys);
            var r := FinishCapture(entry, keys);
            && (s.main.Some? && s.main.value != "" ==>
                  Split(r, '+') == ModifierTokens(keys) + [s.main.value] && EndsWith(r, s.main.value))
            && (!(s.main.Some? && s.main.value != "") && |ModifierTokens(keys)| > 0 ==> Split(r, '+') == ModifierTokens(keys))
            && (!(s.main.Some? && s.main.value != "") && |ModifierTokens(keys)| == 0 ==> r == entry)
  {
    var s := ScanKeys(keys);
    ScanParts(keys);
    TokensNoPlus(keys);
    var tokens := HotkeyTokens(keys);
    if s.main.Some? && s.main.value != "" {
      assert tokens == s.parts + [s.main.value];
      assert |keys| > 0;
      assert FinishCapture(entry, keys) == Join(tokens, '+');
      JoinEndsWithLast(s.parts, s.main.value, '+');
    } else {
      assert tokens == s.parts;
    }
  }

  /** Joining a list whose last element is `last` ends with `last`. */
  lemma {:induction false} JoinEndsWithLast(init: seq<string>, last: string, sep: char)
    ensures EndsWith(Join(init + [last], sep), last)
    decreases |init|
  {
    if |init| == 0 {
      assert [] + [last] == [last];
      assert Join([last], sep) == last;
    } else {
      assert (init + [last])[1..] == init[1..] + [last];
      JoinEndsWithLast(init[1..], last, sep);
    }
  }

  /** The scan of the first two example keys: two modifiers, no main key. */
  lemma ExampleModifiersScan()
    ensures ScanKeys([Special("ctrl_l"), Special("shift")]) == Scan(["<ctrl>", "<shift>"], None)
  {
    var keys := [Special("ctrl_l"), Special("shift")];
    assert ModifierToken(Special("ctrl_l")) == Some("<ctrl>");
    assert ModifierToken(Special("shift")) == Some("<shift>");
    assert keys[..1] == [Special("ctrl_l")];
    assert [Special("ctrl_l")][..0] == [];
    assert ScanKeys([Special("ctrl_l")]) == Scan(["<ctrl>"], None);
  }

  /** The scan of all three example keys: `R` becomes the main key `r`. */
  lemma ExampleScan()
    ensures ScanKeys([Special("ctrl_l"), Special("shift"), Code("R")]) == Scan(["<ctrl>", "<shift>"], Some("r"))
  {
    var keys := [Special("ctrl_l"), Special("shift"), Code("R")];
    assert ModifierToken(Code("R")) == None;
    assert Lower("R") == "r";
    assert Candidate(Code("R")) == Some("r");
    assert keys[..2] == [Special("ctrl_l"), Special("shift")];
    ExampleModifiersScan();
  }

  /** The example from the hotkey field: when the key set yields left Ctrl,
      Shift and `R` in that order, the hotkey is `<ctrl>+<shift>+r`. */
  lemma CaptureExample()
    ensures FinishCapture("", [Special("ctrl_l"), Special("shift"), Code("R")]) == "<ctrl>+<shift>+r"
  {
    var keys := [Special("ctrl_l"), Special("shift"), Code("R")];
    ExampleScan();
    assert HotkeyTokens(keys) == ["<ctrl>", "<shift>", "r"];
    ExampleJoin();
  }

  lemma ExampleJoin()
    ensures Join(["<ctrl>", "<shift>", "r"], '+') == "<ctrl>+<shift>+r"
  {
    JoinCons("<shift>", ["r"], '+');
    JoinCons("<ctrl>", ["<shift>", "r"], '+');
    assert ["<ctrl>"] + ["<shift>", "r"] == ["<ctrl>", "<shift>", "r"];
  }

  // ---------------------------------------------------------------------
  // Save
  // ---------------------------------------------------------------------

  /** The form as it stands when Save is pressed: the hotkey entry, the
      output folder entry, the frame rate (already converted to an integer),
      and the ids selected in the quality and audio drop-downs (`None` when
      nothing is selected). */
  datatype Form = Form(hotkey: string, outputDir: string, framerate: int, profile: Option<string>, audio: Option<string>)

  /** What Save leaves behind: the settings and whether the hotkey changed. */
  datatype Saved = Saved(settings: Config.Settings, hotkeyChanged: bool)

  /** The keys Save always writes. */
  const SavedKeys: set<string> := {"hotkey", "output_dir", "framerate", "audio_source"}

  /** `_on_save`: write the hotkey, folder, frame rate, profile (through the
      setter that refuses unknown names) and audio source, then report
      whether the hotkey now differs from `original`, the hotkey read when
      the window was built. */
  function Save(c: Config.Settings, original: Config.Value, f: Form): (s: Saved)
    ensures SavedKeys <= s.settings.Keys && c.Keys <= s.settings.Keys
    ensures s.settings.Keys <= c.Keys + SavedKeys + {"quality_profile"}
    ensures s.settings["hotkey"] == Config.Str(f.hotkey)
    ensures s.settings["output_dir"] == Config.Str(f.outputDir)
    ensures s.settings["framerate"] == Config.Int(f.framerate)
    ensures s.settings["audio_source"] == (if f.audio.Some? then Config.Str(f.audio.value) else Config.Null)
    ensures f.profile.Some? && Config.IsProfile(f.profile.value) ==>
              "quality_profile" in s.settings && s.settings["quality_profile"] == Config.Str(f.profile.value)
    ensures !(f.profile.Some? && Config.IsProfile(f.profile.value)) ==>
              ("quality_profile" in s.settings <==> "quality_profile" in c)
              && ("quality_profile" in c ==> s.settings["quality_profile"] == c["quality_profile"])
    ensures forall k :: k in c && k !in SavedKeys && k != "quality_profile" ==> s.settings[k] == c[k]
    ensures s.hotkeyChanged <==> Config.Str(f.hotkey) != original
  {
    var c1 := c["hotkey" := Config.Str(f.hotkey)]["output_dir" := Config.Str(f.outputDir)]
               ["framerate" := Config.Int(f.framerate)];
    var c2 := Config.SetQualityProfile(c1, f.profile);
    var c3 := c2["audio_source" := if f.audio.Some? then Config.Str(f.audio.value) else Config.Null];
    Saved(c3, c3["hotkey"] != original)
  }

  /** After Save the encoder settings follow the form: the CRF is the chosen
      profile's (or the one in force if the choice is not a profile), and
      the audio source resolves as the chosen id says. */
  lemma SaveThenResolve(c: Config.Settings, original: Config.Value, f: Form, defaultSink: Option<string>)
    ensures var saved := Save(c, original, f).settings;
            && "audio_source" in saved
            && (f.profile.Some? && Config.IsProfile(f.profile.value) ==>
                  Some(Config.VideoQuality(saved)) == Config.ProfileCrf(f.profile.value))
            && (!(f.profile.Some? && Config.IsProfile(f.profile.value)) ==>
                  Config.VideoQuality(saved) == Config.VideoQuality(c))
            && (f.audio.None? || f.audio == Some("none") ==> Config.ResolvedAudioSource(saved, defaultSink) == Config.Null)
            && (f.audio.Some? && f.audio.value != "none" && f.audio.value != "auto" ==>
                  Config.ResolvedAudioSource(saved, defaultSink) == Config.Str(f.audio.value))
  {
    var saved := Save(c, original, f).settings;
    assert Config.QualityProfile(saved)
           == Config.QualityProfile(Config.SetQualityProfile(c["hotkey" := Config.Str(f.hotkey)]["output_dir" := Config.Str(f.outputDir)]
                                                               ["framerate" := Config.Int(f.framerate)], f.profile));
    if !(f.profile.Some? && Config.IsProfile(f.profile.value)) {
      assert Config.QualityProfile(saved) == Config.QualityProfile(c);
    }
  }

  /** The saved settings read back unchanged from the file they are written to. */
  lemma SaveIsStable(c: Config.Settings, original: Config.Value, f: Form)
    requires Config.DefaultConfig.Keys <= c.Keys
    ensures Config.Load(Config.Parsed(Save(c, original, f).settings)) == Save(c, original, f).settings
  {
    var saved := Save(c, original, f).settings;
    assert Config.DefaultConfig + saved == saved;
  }
}

=== FILE: text.dfy ===
/**
 * The handful of Python `str` operations the recorder relies on, with
 * Python's semantics: substring test, prefix/suffix, `replace`, `split`
 * on one character, `join`, `strip`, and ASCII `lower`/`title`.
 */
module Text {

  /** `sub in s` */
  predicate Contains(s: string, sub: string)
    decreases |s|
  {
    sub <= s || (|s| > 0 && Contains(s[1..], sub))
  }

  /** `s.endswith(suffix)` */
  predicate EndsWith(s: string, suffix: string) {
    |suffix| <= |s| && s[|s| - |suffix|..] == suffix
  }

  lemma EndsWithAppend(s: string, suffix: string)
    ensures EndsWith(s + suffix, suffix)
  {
    assert (s + suffix)[|s|..] == suffix;
  }

  lemma EndsWithTrans(s: string, t: string, suffix: string)
    requires EndsWith(s, t) && EndsWith(t, suffix)
    ensures EndsWith(s, suffix)
  {
    assert s[|s| - |suffix|..] == s[|s| - |t|..][|t| - |suffix|..];
  }

  /** `s.replace(target, replacement)`: every non-overlapping occurrence of `target`, scanning
      left to right, is replaced. Python also accepts an empty `target`; the
      program never passes one. */
  function Replace(s: string, target: string, replacement: string): (r: string)
    requires |target| > 0
    ensures !Contains(s, target) ==> r == s
    decreases |s|
  {
    if |s| == 0 then ""
    else if target <= s then replacement + Replace(s[|target|..], target, replacement)
    else [s[0]] + Replace(s[1..], target, replacement)
  }

  /** Replacing one character by another is a pointwise substitution. */
  lemma {:induction false} ReplaceChar(s: string, a: char, b: char)
    ensures |Replace(s, [a], [b])| == |s|
    ensures forall i :: 0 <= i < |s| ==>
              Replace(s, [a], [b])[i] == (if s[i] == a then b else s[i])
    decreases |s|
  {
    if |s| > 0 {
      ReplaceChar(s[1..], a, b);
      var rest := Replace(s[1..], [a], [b]);
      if [a] <= s {
        assert s[0] == a;
        assert s[1..] == s[|[a]|..];
        assert Replace(s, [a], [b]) == [b] + rest;
      } else {
        assert s[0] != a;
        assert Replace(s, [a], [b]) == [s[0]] + rest;
      }
    }
  }

  /** After replacing `a` by a different character, no `a` is left. */
  lemma ReplaceCharRemoves(s: string, a: char, b: char)
    requires a != b
    ensures a !in Replace(s, [a], [b])
  {
    ReplaceChar(s, a, b);
  }

  /** Index of the first occurrence of `c` (`s.index(c)`). */
  function IndexOf(s: string, c: char): (i: nat)
    requires c in s
    ensures i < |s| && s[i] == c && c !in s[..i]
  {
    if s[0] == c then 0
    else
      var j := IndexOf(s[1..], c);
      assert s[..j + 1] == [s[0]] + s[1..][..j];
      j + 1
  }

  /** The first `c` in `a + [c] + b` is the one after `a` when `a` has none. */
  lemma {:induction false} IndexOfAfter(a: string, c: char, b: string)
    requires c !in a
    ensures IndexOf(a + [c] + b, c) == |a|
    decreases |a|
  {
    if |a| > 0 {
      assert (a + [c] + b)[1..] == a[1..] + [c] + b;
      IndexOfAfter(a[1..], c, b);
    }
  }

  /** `s.split(sep)` for a one-character separator: there is always at least
      one field, and a string without `sep` is its own single field. */
  function Split(s: string, sep: char): (parts: seq<string>)
    ensures |parts| >= 1
    ensures forall i :: 0 <= i < |parts| ==> sep !in parts[i]
    ensures |parts| == 1 <==> sep !in s
    decreases |s|
  {
    if sep !in s then [s]
    else
      var i := IndexOf(s, sep);
      [s[..i]] + Split(s[i + 1..], sep)
  }

  /** `sep.join(parts)` */
  function Join(parts: seq<string>, sep: char): string
    decreases |parts|
  {
    if |parts| == 0 then ""
    else if |parts| == 1 then parts[0]
    else parts[0] + [sep] + Join(parts[1..], sep)
  }

  /** Joining the fields of a split gives the string back. */
  lemma {:induction false} JoinSplit(s: string, sep: char)
    ensures Join(Split(s, sep), sep) == s
    decreases |s|
  {
    if sep in s {
      var i := IndexOf(s, sep);
      var rest := Split(s[i + 1..], sep);
      JoinSplit(s[i + 1..], sep);
      assert Split(s, sep) == [s[..i]] + rest;
      JoinCons(s[..i], rest, sep);
      assert s == s[..i] + [sep] + s[i + 1..];
    }
  }

  /** Joining a head in front of at least one more field. */
  lemma JoinCons(head: string, rest: seq<string>, sep: char)
    requires |rest| >= 1
    ensures Join([head] + rest, sep) == head + [sep] + Join(rest, sep)
  {
    var parts := [head] + rest;
    assert parts[0] == head && parts[1..] == rest;
  }

  /** Splitting a join of separator-free fields gives the fields back. */
  lemma {:induction false} SplitJoin(parts: seq<string>, sep: char)
    requires |parts| >= 1
    requires forall i :: 0 <= i < |parts| ==> sep !in parts[i]
    ensures Split(Join(parts, sep), sep) == parts
    decreases |parts|
  {
    if |parts| > 1 {
      var head, tail := parts[0], Join(parts[1..], sep);
      var s := head + [sep] + tail;
      assert Join(parts, sep) == s;
      assert sep !in head;
      IndexOfAfter(head, sep, tail);
      assert s[|head| + 1..] == tail;
      assert s[..|head|] == head;
      SplitJoin(parts[1..], sep);
      calc {
        Split(s, sep);
        [head] + Split(tail, sep);
        [head] + parts[1..];
        parts;
      }
    }
  }

  /** `str.isspace()` for one character. */
  predicate IsSpace(c: char) {
    c == ' ' || ('\t' <= c <= '\r') || ('\U{1C}' <= c <= '\U{1F}')
    || c == '\U{85}' || c == '\U{A0}' || c == '\U{1680}'
    || ('\U{2000}' <= c <= '\U{200A}') || c == '\U{2028}' || c == '\U{2029}'
    || c == '\U{202F}' || c == '\U{205F}' || c == '\U{3000}'
  }

  /** `s.lstrip()` */
  function TrimStart(s: string): (r: string)
    ensures |r| <= |s| && r == s[|s| - |r|..]
    ensures AllSpace(s[..|s| - |r|])
    ensures |r| > 0 ==> !IsSpace(r[0])
  {
    if |s| > 0 && IsSpace(s[0]) then TrimStart(s[1..]) else s
  }

  /** `s.rstrip()` */
  function TrimEnd(s: string): (r: string)
    ensures |r| <= |s| && r == s[..|r|]
    ensures AllSpace(s[|r|..])
    ensures |r| > 0 ==> !IsSpace(r[|r| - 1])
  {
    if |s| > 0 && IsSpace(s[|s| - 1]) then TrimEnd(s[..|s| - 1]) else s
  }

  lemma SliceOfSlice<T>(s: seq<T>, i: nat, n: nat)
    requires i + n <= |s|
    ensures s[i..][..n] == s[i..i + n]
  {
  }

  lemma PrefixOfSuffix<T>(s: seq<T>, t: seq<T>, r: seq<T>, i: nat)
    requires i <= |s| && t == s[i..] && |r| <= |t| && r == t[..|r|]
    ensures r == s[i..i + |r|]
  {
    SliceOfSlice(s, i, |r|);
  }

  /** Every character of `s` is white space. */
  predicate AllSpace(s: string) {
    forall k :: 0 <= k < |s| ==> IsSpace(s[k])
  }

  /** Only leading and trailing white space is removed by `TrimStart`
      followed by `TrimEnd`. */
  lemma TrimBothSlice(s: string)
    ensures exists i, j :: 0 <= i <= j <= |s| && TrimEnd(TrimStart(s)) == s[i..j]
              && AllSpace(s[..i]) && AllSpace(s[j..])
  {
    var t := TrimStart(s);
    var i := |s| - |t|;
    var r := TrimEnd(t);
    var j := i + |r|;
    PrefixOfSuffix(s, t, r, i);
    SuffixOfSuffix(s, t, i, |r|);
  }

  lemma SuffixOfSuffix<T>(s: seq<T>, t: seq<T>, i: nat, m: nat)
    requires i <= |s| && t == s[i..] && m <= |t|
    ensures t[m..] == s[i + m..]
  {
  }

  /** `s.strip()`: what is left neither starts nor ends with white space, and
      is what lies between white space removed from both ends. */
  function Strip(s: string): (r: string)
    ensures |r| > 0 ==> !IsSpace(r[0]) && !IsSpace(r[|r| - 1])
    ensures (forall k :: 0 <= k < |s| ==> !IsSpace(s[k])) ==> r == s
    ensures exists i, j :: 0 <= i <= j <= |s| && r == s[i..j] && AllSpace(s[..i]) && AllSpace(s[j..])
  {
    TrimBothSlice(s);
    TrimEnd(TrimStart(s))
  }

  predicate IsUpperAscii(c: char) { 'A' <= c <= 'Z' }
  predicate IsLowerAscii(c: char) { 'a' <= c <= 'z' }
  predicate IsAsciiLetter(c: char) { IsUpperAscii(c) || IsLowerAscii(c) }

  function ToLowerChar(c: char): char {
    if IsUpperAscii(c) then (c as int + 32) as char else c
  }

  function ToUpperChar(c: char): char {
    if IsLowerAscii(c) then (c as int - 32) as char else c
  }

  /** `s.lower()` on ASCII letters; every other character is kept. */
  function Lower(s: string): (r: string)
    ensures |r| == |s|
    ensures forall i :: 0 <= i < |s| ==> r[i] == ToLowerChar(s[i])
  {
    if |s| == 0 then "" else [ToLowerChar(s[0])] + Lower(s[1..])
  }

  /** `title()` continued after a character that was (`afterLetter`) or was not
      a letter. */
  function TitleAfter(s: string, afterLetter: bool): (r: string)
    ensures |r| == |s|
    ensures forall i :: 0 <= i < |s| ==> (IsAsciiLetter(r[i]) <==> IsAsciiLetter(s[i]))
    ensures forall i :: 0 <= i < |s| && !IsAsciiLetter(s[i]) ==> r[i] == s[i]
    ensures |s| > 0 && IsAsciiLetter(s[0]) ==>
              r[0] == (if afterLetter then ToLowerChar(s[0]) else ToUpperChar(s[0]))
    ensures forall i :: 1 <= i < |s| && IsAsciiLetter(s[i]) ==>
              r[i] == (if IsAsciiLetter(s[i - 1]) then ToLowerChar(s[i]) else ToUpperChar(s[i]))
    decreases |s|
  {
    if |s| == 0 then ""
    else
      var c := if !IsAsciiLetter(s[0]) then s[0]
               else if afterLetter then ToLowerChar(s[0]) else ToUpperChar(s[0]);
      [c] + TitleAfter(s[1..], IsAsciiLetter(s[0]))
  }

  /** `s.title()` on ASCII letters: a letter is upper-cased when it starts a
      word (follows a non-letter or the start) and lower-cased otherwise. */
  function Title(s: string): (r: string)
    ensures |r| == |s|
    ensures forall i :: 0 <= i < |s| && !IsAsciiLetter(s[i]) ==> r[i] == s[i]
    ensures forall i :: 0 <= i < |s| && IsAsciiLetter(s[i]) ==>
              r[i] == (if i > 0 && IsAsciiLetter(s[i - 1]) then ToLowerChar(s[i]) else ToUpperChar(s[i]))
  {
    TitleAfter(s, false)
  }
}

=== FILE: wrappers.dfy ===
/** The optional value used wherever the program stores or returns `None`. */
module Wrappers {

  /** Python's `None` or a present value. */
  datatype Option<+T> = None | Some(value: T) {

    /** The present value, or `default` when there is none (`d.get(k, default)`). */
    function GetOr(default: T): T {
      match this
      case Some(v) => v
      case None => default
    }
  }
}
